=== FILE: README.md ===
# swift-gpio in Dafny

A model of the core of swift-gpio, a Swift library for a board's digital
I/O pins. It covers five pieces.

- **Pin lease registries.** `GPIOs` and the older `GPIOController` each hand
  out at most one live `GPIO` handle per pin. They record issued handles
  through weak references, so a dropped handle's pin can be leased again
  without an explicit release.
- **Pin handle.** A `GPIO` pushes every change of direction, value or pull
  to the backend at once. When it goes away it drives an output pin off.
  Its small enumerations convert to and from the backend's.
- **Hardware PWM multiplexer.** Pins 12 and 18 share PWM channel one; pins
  13 and 19 share channel two. A second registry, keyed by channel, gives
  out at most one live session per channel. A session programs the
  channel's registers when created and resets them when it goes away.
- **Software PWM.** The duty clamp, one iteration of the on/off loop, and
  the two factories. The factories store the initial duty unclamped, as the
  code does; corrected factories that clamp it sit beside them.
- **I2C bus probe.** Candidate addresses are tried in a fixed order. Each one
  is accepted when a write of the byte 0 to it returns a non-negative result. A failed register read counts as 0.

Also modelled: the `sleep` helpers' unit conversions.

How the model is built:

- Swift's reference counting is an explicit heap of live object ids
  (`Weak.Heap`). A weak reference reads as nil once its referent has left
  that heap.
- The hardware backend (SwiftyGPIO and WiringPi) is a trace of
  `Backend.Event`s. `Backend.Run` interprets a trace over a store of line and
  PWM register state.
- The I2C primitives are oracles, passed in as a `Wire` value.
- A Swift runtime trap (`UInt32` overflow, a float-to-integer conversion out
  of range, division by zero) is `None`. The one exception is the frequency
  factories, whose `10_000 / hz` is excluded by `requires hz > 0` (see Left
  out).

Both pin registries share one abstract state: a `Leases.Table` of weak
references and a `Weak.Heap`. Both go through the same guard,
`Leases.Reclaim`: a live entry refuses the lease and a stale entry is
cleared. The hardware PWM registry uses the same guard on channels.
`Leases.Registered` is the exclusivity invariant that every registry keeps.

Where the code does something its documentation or names do not suggest,
the model follows the code:

- `GPIOController.gpio` documents `pinNotFound` but never throws it
  (`GpioController.NeverNotFound`).
- The hardware duty register is `Int32(1024 * duty / 100)`. That truncates
  toward zero and has no range check.
- In `GPIO.init`, assigning the computed `value` runs its setter, but
  assigning the stored `direction` does not run its `didSet`. The
  initialiser therefore writes the value, then the direction, then the value
  again.
- For the same reason the software PWM initialiser stores its duty without
  the clamp, so the factories can hand out a session whose loop traps (see
  Findings).

## Model

| member | source | states |
|---|---|---|
| Weak.Get | Sources/SwiftGPIO/Weak.swift:2-8 | a weak reference yields its referent exactly while the referent is alive |
| Weak.WeakTracksLifetime | Tests/SwiftGPIOTests/WeakTests.swift:15-26 | a weak reference to a new object is non-nil, and nil once the object is released |
| Leases.Reclaim | Sources/SwiftGPIO/GPIOs.swift:33-37 | the lease guard refuses exactly when the entry's referent is alive; otherwise the entry is removed and every other entry is kept |
| Leases.RegisteredIsExclusive | Sources/SwiftGPIO/GPIOs.swift:32-47 | under the registry invariant, two live handles granted for the same key are the same handle |
| Leases.GrantKeepsRegistered | Sources/SwiftGPIO/GPIOs.swift:33-46 | clearing a stale entry, then recording a freshly allocated handle, keeps the invariant |
| Leases.ReclaimKeepsRegistered | Sources/SwiftGPIO/GPIOs.swift:33-40 | clearing a stale entry before a failed lookup keeps the invariant |
| Leases.ReleaseKeepsRegistered | Sources/SwiftGPIO/GPIOs.swift:19 | a handle dying keeps the invariant, since the table holds weak references only |
| Ints.Mul | Sources/SwiftGPIO/sleep.swift:10 | `UInt32` multiplication yields the product exactly when it fits, and traps otherwise |
| Ints.Sub | Sources/SwiftGPIO/PulseWidthModulation.swift:61 | `UInt32` subtraction traps exactly when the result would be negative |
| Ints.TruncateTowardZero | Sources/SwiftGPIO/PulseWidthModulation.swift:60 | float-to-integer conversion truncates toward zero, for both signs |
| Ints.ToUInt32 | Sources/SwiftGPIO/PulseWidthModulation.swift:60 | `UInt32(duty)` succeeds exactly for -1 < duty < 2^32; it is the floor for non-negative duty and 0 for small negative duty |
| Ints.ToInt32 | Sources/SwiftGPIO/PulseWidthModulation+Hardware.swift:67 | `Int32(x)` succeeds exactly when the truncated value is representable, and is that truncation |
| Gpio.Swifty | Sources/SwiftGPIO/GPIO.swift:101-153 | pin `p<i>` maps to backend line `P<i>`, and the line maps back to the pin |
| Gpio.SwiftyInjective | Sources/SwiftGPIO/GPIO.swift:101-153 | distinct pins map to distinct backend lines |
| Gpio.FromBool | Sources/SwiftGPIO/GPIO.swift:66-68 | `Value(true)` is `on` and `Value(false)` is `off` |
| Gpio.FromBoolNegation | Sources/SwiftGPIO/GPIO.swift:66-83 | negating the flag toggles the value, and a flag reaches the backend as 1 for true and 0 for false |
| Gpio.Toggle | Sources/SwiftGPIO/GPIO.swift:71-76 | `toggle()` always changes the value |
| Gpio.Toggled | Sources/SwiftGPIO/GPIO.swift:79-83 | `toggled()` differs from its input and is exactly what `toggle()` leaves behind |
| Gpio.ToggledInvolution | Sources/SwiftGPIO/GPIO.swift:71-83 | toggling twice gives back the original value |
| Gpio.ValueFromSwifty | Sources/SwiftGPIO/GPIO.swift:191-196 | a backend level reads as `off` exactly when it is 0 |
| Gpio.ValueToSwifty | Sources/SwiftGPIO/GPIO.swift:197-202 | `off` is 0 and `on` is 1, and converting back gives the original value |
| Gpio.ValueSwiftyNormalises | Sources/SwiftGPIO/GPIO.swift:190-202 | any level read as a value and written back becomes 0 or 1, and stays zero exactly when it was zero |
| Gpio.DirectionFromSwifty | Sources/SwiftGPIO/GPIO.swift:175-180 | backend `IN` reads as `in` and `OUT` as `out`, and nothing else does |
| Gpio.DirectionToSwifty | Sources/SwiftGPIO/GPIO.swift:182-187 | the direction conversion is undone by `Direction(swifty:)` |
| Gpio.DirectionBijection | Sources/SwiftGPIO/GPIO.swift:174-188 | the two direction conversions are mutually inverse |
| Gpio.PullFromSwifty | Sources/SwiftGPIO/GPIO.swift:157-163 | each backend pull reads as the pull of the same name, and only that one |
| Gpio.PullToSwifty | Sources/SwiftGPIO/GPIO.swift:165-171 | the pull conversion is undone by `Pull(swifty:)` |
| Gpio.PullBijection | Sources/SwiftGPIO/GPIO.swift:156-172 | the two pull conversions are mutually inverse |
| Gpio.ReadValue | Sources/SwiftGPIO/GPIO.swift:21 | the `value` getter reads `off` exactly when the handle's line level is 0 |
| Gpio.ReadPull | Sources/SwiftGPIO/GPIO.swift:29 | the `pull` getter reads the pull whose backend form is the line's pull |
| Gpio.SetValue | Sources/SwiftGPIO/GPIO.swift:20-23 | setting `value` writes the backend at once in a single operation; the getter then reads the new value back; the line keeps its direction and pull, and all other lines are untouched |
| Gpio.SetPull | Sources/SwiftGPIO/GPIO.swift:28-31 | setting `pull` writes the backend at once, in either direction, and is read back; the line keeps its level and direction, and other lines are untouched |
| Gpio.SetDirection | Sources/SwiftGPIO/GPIO.swift:11-13 | setting `direction` updates the handle and reconfigures the line's mode at once; the line keeps its level and pull, and other lines are untouched |
| Gpio.Init | Sources/SwiftGPIO/GPIO.swift:35-43 | after creation the line has the requested direction and reads the requested value, and keeps its pull; only that line changed |
| Gpio.InitSteps | Sources/SwiftGPIO/GPIO.swift:38-42 | the initialiser's value write, direction write and value write together leave the requested configuration |
| Gpio.Deinit | Sources/SwiftGPIO/GPIO.swift:45-50 | deinit writes the backend if and only if the pin is an output; an output line then reads `off` and keeps its direction and pull, with every other line untouched; an input pin leaves the backend as it was |
| Gpio.Drop | Sources/SwiftGPIO/GPIO.swift:45-50 | dropping a handle removes it from the live set and runs its deinit, with the same effect on the backend: an output line drops to `off` keeping its direction and pull, and an input pin changes nothing |
| PinLeases.Issue | Sources/SwiftGPIO/GPIOs.swift:42-46 | a successful lease returns a new handle for the pin, configured as requested, that the table now records as live |
| Gpios.Lease | Sources/SwiftGPIO/GPIOs.swift:32-47 | `pinInUse` exactly when a live handle holds the pin, with the table unchanged; `pinNotFound` exactly when the pin is free and missing from the board, with a stale entry already cleared; on success the table records the returned handle; no other pin's entry changes |
| Gpios.LeaseKeepsExclusive | Sources/SwiftGPIO/GPIOs.swift:32-47 | every lease keeps at most one live handle per pin, and keeps every recorded pin on the board |
| Gpios.LeaseWhileAliveFails | Tests/SwiftGPIOTests/GPIOsTests.swift:9-26 | leasing a pin again while its handle lives throws `pinInUse` for that pin |
| Gpios.LeaseAfterDropSucceeds | Tests/SwiftGPIOTests/GPIOsTests.swift:28-41 | after the handle is dropped the same pin leases again, with no explicit release |
| Gpios.MissingPinIsNotFound | Sources/SwiftGPIO/GPIOs.swift:39-40 | whatever the lease history, a pin the board lacks gets `pinNotFound`, never `pinInUse` |
| GpioController.Lease | Sources/SwiftGPIO/GPIOController.swift:41-53 | fails only with `pinInUse`, exactly when a live handle holds the pin, with the table unchanged; otherwise the stale entry is replaced by the returned handle; no other pin's entry changes |
| GpioController.NeverNotFound | Sources/SwiftGPIO/GPIOController.swift:39-53 | no path throws `pinNotFound`, despite the documentation; a pin without a live handle always leases |
| GpioController.AgreesWithGpios | Sources/SwiftGPIO/GPIOController.swift:41-53 | on a pin the board has, the two registries give the same outcome; on any other pin `GPIOs` refuses a lease the controller grants |
| GpioController.LeaseKeepsExclusive | Sources/SwiftGPIO/GPIOController.swift:41-53 | the controller also keeps at most one live handle per pin |
| Sleep.SleepMicros | Sources/SwiftGPIO/sleep.swift:14-16 | `sleep(µs:)` hands its argument to `usleep` unchanged |
| Sleep.SleepMillis | Sources/SwiftGPIO/sleep.swift:9-16 | `sleep(ms:)` passes `ms * 1000` µs to `usleep`, and traps exactly when ms > 4294967 |
| Sleep.SleepSeconds | Sources/SwiftGPIO/sleep.swift:4-6 | `sleep(s:)` passes `s * 1000000` µs, and both multiplications fit exactly when s <= 4294 |
| Sleep.SleepHz | Sources/SwiftGPIO/sleep.swift:21-23 | `sleep(Hz:)` passes the largest whole number of µs not exceeding 1/Hz s, and traps exactly when Hz is 0 |
| Sleep.SleepChain | Sources/SwiftGPIO/sleep.swift:4-11 | seconds go through milliseconds to microseconds: when `s * 1000` fits, `sleep(s:)` is `sleep(ms:)` of it, which is `sleep(µs:)` of `s * 1000000` |
| Sequences.FirstHit | Sources/SwiftGPIO/I2C.swift:10-17 | the index of the first element whose transform is non-nil, or the length when there is none |
| Sequences.FirstMapped | Sources/SwiftGPIO/I2C.swift:10-17 | `firstMapped` is nil exactly when every transform is nil, and is otherwise the transform at the first hit |
| Sequences.FirstMappedLoop | Sources/SwiftGPIO/I2C.swift:11-16 | the loop returns `firstMapped`, and evaluates elements only up to and including the first hit |
| Sequences.FirstMappedCongruent | Sources/SwiftGPIO/I2C.swift:10-17 | `firstMapped` sees its transform only at the elements: transforms that agree there give the same result |
| SoftwarePwm.SetDuty | Sources/SwiftGPIO/PulseWidthModulation.swift:32-39 | after any assignment, 0 <= duty <= range; an in-range value is kept exactly; values below 0 or above range saturate at that bound |
| SoftwarePwm.SetDutyIdempotent | Sources/SwiftGPIO/PulseWidthModulation.swift:32-39 | assigning the current duty again changes nothing |
| SoftwarePwm.PhaseFor | Sources/SwiftGPIO/PulseWidthModulation.swift:63-71 | a phase is skipped when its length is zero, and traps when its µs overflow `UInt32` |
| SoftwarePwm.Iteration | Sources/SwiftGPIO/PulseWidthModulation.swift:58-73 | an iteration that does not trap had -1 < duty with mark <= range, and has at most two phases, none of them zero-length |
| SoftwarePwm.IterationInRange | Sources/SwiftGPIO/PulseWidthModulation.swift:60-71 | with duty in range and the cycle fitting in `UInt32`: no trap; on for floor(duty)*100 µs, then off for the rest; range*100 µs in total |
| SoftwarePwm.IterationExtremes | Sources/SwiftGPIO/PulseWidthModulation.swift:63-71 | duty 0 gives only an off phase; duty = range gives only an on phase |
| SoftwarePwm.IterationExample | Sources/SwiftGPIO/PulseWidthModulation.swift:82-83 | range 100 with duty 30 is on for 3000 µs, then off for 7000 µs |
| SoftwarePwm.AssignedDutyNeverTraps | Sources/SwiftGPIO/PulseWidthModulation.swift:32-71 | after any duty assignment the loop's next iteration does not trap, when range * 100 fits in `UInt32` |
| SoftwarePwm.InitAsWritten | Sources/SwiftGPIO/PulseWidthModulation.swift:46-50 | the initialiser stores the given duty unclamped |
| SoftwarePwm.InitAsWrittenTraps | Sources/SwiftGPIO/PulseWidthModulation.swift:46-61 | an unclamped initial duty of 150 with range 100, or of -1, makes the first iteration trap |
| SoftwarePwm.Init | Sources/SwiftGPIO/PulseWidthModulation.swift:46-56 | corrected initialiser: the session starts with 0 <= duty <= range, and its iterations do not trap when range * 100 fits in `UInt32` |
| SoftwarePwm.InitTrapsOnHugeRange | Sources/SwiftGPIO/PulseWidthModulation.swift:60-65 | even the clamped initialiser gives a trapping iteration when range * 100 overflows: range 50000000 with duty 50000000 |
| SoftwarePwm.Started | Sources/SwiftGPIO/PulseWidthModulation.swift:95-96 | a lease error propagates unchanged (`try`); on success the session is built on the leased handle; the table, heap and backend writes are the lease's |
| SoftwarePwm.WithRange | Sources/SwiftGPIO/PulseWidthModulation.swift:94-97 | leases the pin from the controller as an output and passes the lease's outcome and errors through unchanged; on success the session owns that handle, with the given range and the given duty stored unclamped |
| SoftwarePwm.WithRangeCanTrap | Sources/SwiftGPIO/PulseWidthModulation.swift:94-97 | on a free pin, range 100 with duty 150 gives a session whose first iteration traps |
| SoftwarePwm.WithHz | Sources/SwiftGPIO/PulseWidthModulation.swift:112-115 | as the range factory: the controller lease's outcome, error, table, heap and backend writes pass through unchanged; on success the session owns the leased handle, with range = 10000 / hz rounded down and the given duty stored unclamped |
| SoftwarePwm.WithHzCanTrap | Sources/SwiftGPIO/PulseWidthModulation.swift:112-115 | on a free pin, 100 Hz with duty 150 gives a session whose first iteration traps |
| SoftwarePwm.WithRangeClamped | Sources/SwiftGPIO/PulseWidthModulation.swift:94-97 | corrected range factory: the same lease outcome, table, heap and backend writes as the controller's lease, and a session with 0 <= duty <= range that keeps an in-range duty and does not trap when the cycle fits |
| SoftwarePwm.WithHzClamped | Sources/SwiftGPIO/PulseWidthModulation.swift:112-115 | corrected frequency factory: the controller lease passes through unchanged; the session's duty is within its range and its loop never traps, since 10000 / hz always fits |
| SoftwarePwm.DefaultCycleIsTenMillis | Sources/SwiftGPIO/PulseWidthModulation.swift:88-90 | with the default range of 100, one iteration at any in-range duty lasts 10 ms |
| HardwarePwm.PinOf | Sources/SwiftGPIO/PulseWidthModulation+Hardware.swift:14-21 | every hardware pin is one of header pins 12, 13, 18 and 19 |
| HardwarePwm.ChannelOf | Sources/SwiftGPIO/PulseWidthModulation+Hardware.swift:23-28 | pins 12 and 18 are on channel one; pins 13 and 19 are on channel two |
| HardwarePwm.PinOfInjective | Sources/SwiftGPIO/PulseWidthModulation+Hardware.swift:14-21 | no two hardware pins name the same header pin |
| HardwarePwm.Find | Sources/SwiftGPIO/PulseWidthModulation+Hardware.swift:42-43 | the lookup succeeds exactly for pins 12, 13, 18 and 19, and returns the hardware pin for that header pin |
| HardwarePwm.ChannelTable | Sources/SwiftGPIO/PulseWidthModulation+Hardware.swift:10-28 | each hardware-capable pin is found and assigned its aliased channel |
| HardwarePwm.Construct | Sources/SwiftGPIO/PulseWidthModulation+Hardware.swift:71-76 | a new session starts at duty 0; three writes: duty register 0 and range 1024 are set while the pin mode is unchanged, and the mode switch to PWM output comes last; no other register, mode, tone or line changes |
| HardwarePwm.Deinit | Sources/SwiftGPIO/PulseWidthModulation+Hardware.swift:78-82 | three writes: duty and tone are zeroed while the pin mode is unchanged, and the switch to mode off comes last; the channel is left inert, and no other register, mode, tone, the range or any line changes |
| HardwarePwm.SessionCleansUp | Sources/SwiftGPIO/PulseWidthModulation+Hardware.swift:71-82 | corollary of the two above over a whole session: after creation the channel is programmed, and whatever register writes happen meanwhile, deinit leaves it inert |
| HardwarePwm.DutyRegister | Sources/SwiftGPIO/PulseWidthModulation+Hardware.swift:67 | a duty in [0, 100] percent programs a register value in [0, 1024] without trapping |
| HardwarePwm.DutyRegisterMonotone | Sources/SwiftGPIO/PulseWidthModulation+Hardware.swift:67 | a larger duty never programs a smaller register value |
| HardwarePwm.SetDuty | Sources/SwiftGPIO/PulseWidthModulation+Hardware.swift:65-69 | assigning duty keeps it unchecked and writes the scaled value to the pin's duty register at once; the range, tones, modes, lines and the other channel's duty register are untouched; a duty whose scaled value does not fit `Int32` traps |
| HardwarePwm.Lease | Sources/SwiftGPIO/PulseWidthModulation+Hardware.swift:41-57 | `notFound` exactly for pins outside {12, 13, 18, 19}, checked before use; `inUse` exactly when the pin's channel has a live session; on success the channel records the new session, which is exactly what construction gives: duty 0, duty register and range set before the mode switches to PWM output, and nothing else in the backend changed; the other channel's table entry is untouched |
| HardwarePwm.AliasIsInUse | Sources/SwiftGPIO/PulseWidthModulation+Hardware.swift:45-50 | while a session leased through one pin lives, leasing its aliasing pin throws `inUse` |
| HardwarePwm.LeaseAfterReleaseSucceeds | Sources/SwiftGPIO/PulseWidthModulation+Hardware.swift:45-47 | once the session is released, its channel's dead entry is cleared and either pin leases again |
| HardwarePwm.LeaseKeepsExclusive | Sources/SwiftGPIO/PulseWidthModulation+Hardware.swift:36-57 | every lease keeps at most one live session per channel |
| I2C.Path | Sources/SwiftGPIO/I2C.swift:24-29 | `old` is /dev/i2c-0 and `new` is /dev/i2c-1 |
| I2C.PathInjective | Sources/SwiftGPIO/I2C.swift:24-29 | the two devices have different paths |
| I2C.RawValue | Sources/SwiftGPIO/I2C.swift:35-46 | `a<i>` is register i, always in 0..7, and the register maps back to the pin |
| I2C.Connect | Sources/SwiftGPIO/I2C.swift:54-60 | a requested device is opened through its path; with none, the default bus is set up |
| I2C.ConnectUsesOneOracle | Sources/SwiftGPIO/I2C.swift:54-60 | a connection depends only on `setupInterface` when a device is requested, and only on `setup` when none is |
| I2C.Validate | Sources/SwiftGPIO/I2C.swift:62-70 | an address is accepted exactly when a connection opens and a write of the byte 0 to it returns a non-negative result |
| I2C.Open | Sources/SwiftGPIO/I2C.swift:53-73 | `notReachable` exactly when no candidate validates; 0x48 wins whenever it validates, and 0x4b only when 0x48 does not; the handle is always a validated one |
| I2C.OpenDependsOnProbes | Sources/SwiftGPIO/I2C.swift:62-71 | the outcome depends on the bus only through the per-address probe results |
| I2C.OpenWithDeviceIgnoresSetup | Sources/SwiftGPIO/I2C.swift:53-71 | opening a named device never consults `setup`: wires agreeing on `setupInterface` at its path and on a write of the byte 0 open the same bus |
| I2C.OpenWithoutDeviceIgnoresInterface | Sources/SwiftGPIO/I2C.swift:53-71 | opening the default bus never consults `setupInterface` |
| I2C.OpenProbing | Sources/SwiftGPIO/I2C.swift:62-71 | addresses are probed in the order 0x48, 0x4b; probing stops at the first accepted address |
| I2C.Read | Sources/SwiftGPIO/I2C.swift:75-77 | a register read returns the device's byte, or 0 when the underlying read fails; a non-zero answer is always the device's byte, and 0 means the read failed or the byte was 0 |
| I2C.FailedReadLooksLikeZero | Sources/SwiftGPIO/I2C.swift:76 | the read is lossy: a failed read and a register holding 0 both answer 0 |

## Findings

| source | as written | input that shows it | evidently intended | confidence | as-written member | corrected member |
|---|---|---|---|---|---|---|
| Sources/SwiftGPIO/PulseWidthModulation.swift:46-50 | `self.duty = duty` in the initialiser does not run the clamping `didSet`, so a session can start outside [0, range] | range 100 with duty 150: in `run()`, `range - mark` is `100 - 150` on `UInt32` and traps; duty -1 makes `UInt32(duty)` trap | the initial duty is clamped like every later assignment | medium; not executed | SoftwarePwm.InitAsWritten | SoftwarePwm.Init |

In the Dafny: `SoftwarePwm.InitAsWrittenTraps` shows both trapping inputs
against the as-written initialiser, and the factories `SoftwarePwm.WithRange`
and `SoftwarePwm.WithHz`, which use it as the code does, hand out such a
session (`SoftwarePwm.WithRangeCanTrap`, `SoftwarePwm.WithHzCanTrap`).
`SoftwarePwm.Init` proves that a fresh session's iterations never trap when
range * 100 fits in `UInt32`, and
the corrected factories `SoftwarePwm.WithRangeClamped` and
`SoftwarePwm.WithHzClamped` are built on it.

## Left out

- The PWM background thread, its endless `while` loop and the real `usleep`. These are concurrency and timing; one loop iteration is modelled as a list of phases.
- Sleep.SleepMillis, Sleep.SleepSeconds, Sleep.SleepHz: these return the microseconds handed to `usleep`, not its `Int32` result, which comes from the operating system.
- Floating-point rounding. `Float` duties are Dafny reals, so rounding of `Float(range)` and `1024 * duty / 100` is not modelled.
- HardwarePwm.DutyRegister: the register value is stated for real arithmetic, not for the `Float` arithmetic the source performs. A NaN or infinite duty, which makes `Int32(...)` trap, has no real counterpart.
- HardwarePwm.SetDuty: likewise covers only finite duties; a NaN duty would trap at the register conversion.
- SoftwarePwm.SetDuty: a `Float` NaN fails both comparisons of the clamp and is kept; duties are reals here, so the promise 0 <= duty <= range holds only for the finite values the model has.
- SoftwarePwm.AssignedDutyNeverTraps: holds for every real duty; a NaN duty, kept by the clamp, would make `UInt32(duty)` trap.
- SoftwarePwm.Init: the clamp does not prevent every trap. With a range above 42_949_672, `mark * 100` (line 65) or `space * 100` (line 70) overflows `UInt32` even for a clamped duty (`SoftwarePwm.InitTrapsOnHugeRange`), so the no-trap promises of `SoftwarePwm.Init`, `SoftwarePwm.AssignedDutyNeverTraps` and `SoftwarePwm.WithRangeClamped` are conditional on range * 100 fitting in `UInt32`. The frequency factories always satisfy that condition.
- SoftwarePwm.Iteration: a trap is `None` and carries no effects, so the `on` write made before `mark * 100` overflows (line 64 before line 65) is not represented; the process ends at the trap.
- Sampling of input pins. The backend store returns the last level written to a line, so a level changed by the outside world is not modelled.
- The board tables. `SwiftyGPIO.GPIOs(for:)` is replaced by the set of line names passed to `Gpios.Gpios`. WiringPi's `gpioAddress` table is replaced by addressing PWM registers by the pin's line name. `setupBoard` is not modelled.
- Board.swift, SwiftyGPIO.swift and Package.swift: an enum-to-enum table into an external type, a type alias, and build configuration.
- `GPIOController.i2c(_:)` at Sources/SwiftGPIO/I2C.swift:80-84: it only forwards to `I2C.init(device:)`, which `I2C.Open` models.
- Default argument values: a lease's default value `off`, the factories' default duty 0, and the default range: a range factory without one is not a separate member, though `SoftwarePwm.DefaultCycleIsTenMillis` states what the default range of 100 gives.
- SoftwarePwm.WithHzClamped: requires hz > 0, for the same reason as `SoftwarePwm.WithHz` below.
- SoftwarePwm.WithHz: requires hz > 0. In the source the pin is leased before `10_000 / hz` traps, and that leased-then-trapped state is not represented.
- Thread safety of the registries' lookup-then-insert. The model is sequential.
- The three duplicate `Weak` classes and the initialiser call at Sources/SwiftGPIO/GPIOController.swift:48, which has no matching `GPIO` initialiser. The model follows the semantics: the controller's handle drives the line its pin names.
- The software PWM thread keeps its session alive, so the session never deinitialises. Handle lifetime is modelled only through explicit drops.

=== FILE: backend.dfy ===
/** The hardware backend (SwiftyGPIO and WiringPi), abstracted as a trace of
    register operations and a store that interprets them.

    The store keeps, per GPIO line, the last direction, level and pull
    written; a level sampled from the outside world in input mode is not
    modelled, so reading a line returns the stored level. PWM registers are
    addressed by the GPIO name of their pin. */
module Backend {

  /** SwiftyGPIO's name of a GPIO line (`GPIOName.P0`, `.P1`, ...). */
  datatype GpioName = GpioName(number: nat)

  /** SwiftyGPIO's `GPIODirection`. */
  datatype GpioDirection = IN | OUT

  /** SwiftyGPIO's `GPIOPull`. */
  datatype GpioPull = PullUp | PullDown | PullNeither

  /** WiringPi's pin modes, as far as the library uses them. */
  datatype PinMode = PwmOutput | ModeOff

  datatype Event =
    | SetDirection(line: GpioName, direction: GpioDirection)
    | WriteValue(line: GpioName, level: int)
    | SetPull(line: GpioName, pull: GpioPull)
    | PwmWrite(address: GpioName, duty: int)
    | PwmSetRange(range: int)
    | PwmWriteTone(address: GpioName, frequency: int)
    | ChangeMode(address: GpioName, mode: PinMode)

  datatype Line = Line(direction: GpioDirection, level: int, pull: GpioPull)

  /** What a line reads as before anything was written to it. */
  const Unconfigured: Line := Line(IN, 0, PullNeither)

  datatype State = State(
    lines: map<GpioName, Line>,
    duty: map<GpioName, int>,
    tone: map<GpioName, int>,
    mode: map<GpioName, PinMode>,
    range: int)

  function LineState(s: State, name: GpioName): Line
  {
    if name in s.lines then s.lines[name] else Unconfigured
  }

  /** The store after one operation. */
  function Apply(s: State, e: Event): State
  {
    match e
    case SetDirection(n, d) => s.(lines := s.lines[n := LineState(s, n).(direction := d)])
    case WriteValue(n, v) => s.(lines := s.lines[n := LineState(s, n).(level := v)])
    case SetPull(n, p) => s.(lines := s.lines[n := LineState(s, n).(pull := p)])
    case PwmWrite(a, v) => s.(duty := s.duty[a := v])
    case PwmSetRange(r) => s.(range := r)
    case PwmWriteTone(a, f) => s.(tone := s.tone[a := f])
    case ChangeMode(a, m) => s.(mode := s.mode[a := m])
  }

  /** The store after a trace of operations, performed in order. */
  function Run(s: State, es: seq<Event>): State
    decreases |es|
  {
    if es == [] then s else Run(Apply(s, es[0]), es[1..])
  }

  /** Running two traces one after the other is running their concatenation. */
  lemma {:induction false} RunAppend(s: State, a: seq<Event>, b: seq<Event>)
    ensures Run(s, a + b) == Run(Run(s, a), b)
    decreases |a|
  {
    if a == [] {
      assert a + b == b;
    } else {
      assert (a + b)[1..] == a[1..] + b;
      RunAppend(Apply(s, a[0]), a[1..], b);
    }
  }

  /** Running a one-element trace is applying its operation. */
  lemma RunOne(s: State, e: Event)
    ensures Run(s, [e]) == Apply(s, e)
  {
  }
}

=== FILE: gpio.dfy ===
/** A pin handle (`GPIO`) and its small enumerations.

    A handle names one header pin and remembers its direction; its value and
    pull are not stored but read from and written to the backend line. Every
    setter produces the backend operations it performs, in order. */
module Gpio {
  import opened Wrappers
  import opened Weak
  import Backend

  /** `GPIO.Pin`: the 48 header positions `p0` ... `p47`. */
  newtype Pin = i: int | 0 <= i < 48

  /** The inverse of `Swifty`: the header pin a backend line belongs to. */
  function PinOfName(n: Backend.GpioName): Option<Pin>
  {
    if n.number < 48 then Some(n.number as Pin) else None
  }

  /** `Pin.swifty`: `p<i>` names the backend line `P<i>`. */
  function Swifty(p: Pin): (r: Backend.GpioName)
    ensures PinOfName(r) == Some(p)
  {
    Backend.GpioName(p as nat)
  }

  /** Distinct pins name distinct backend lines. */
  lemma SwiftyInjective(p: Pin, q: Pin)
    ensures Swifty(p) == Swifty(q) ==> p == q
  {
  }

  // ---------------------------------------------------------------- Value

  /** `GPIO.Value`. */
  datatype Value = On | Off

  /** `Value(bool)`. */
  function FromBool(b: bool): (r: Value)
    ensures r == On <==> b
    ensures r == Off <==> !b
  {
    if b then On else Off
  }

  /** The mutating `toggle()`: the value a variable holds afterwards. */
  function Toggle(v: Value): (r: Value)
    ensures r != v
  {
    match v
    case On => Off
    case Off => On
  }

  /** `toggled()`: copies the value and toggles the copy. */
  function Toggled(v: Value): (r: Value)
    ensures r != v
    ensures Toggle(v) == r
  {
    var val := v;
    Toggle(val)
  }

  /** `Value(bool)` commutes with negation, and a flag stored as a value
      reaches the backend as 1 for `true` and 0 for `false`. */
  lemma FromBoolNegation(b: bool)
    ensures FromBool(!b) == Toggled(FromBool(b))
    ensures ValueToSwifty(FromBool(b)) == if b then 1 else 0
  {
  }

  /** `toggled()` undoes itself. */
  lemma ToggledInvolution(v: Value)
    ensures Toggled(Toggled(v)) == v
  {
  }

  /** `Value(swifty:)`: zero reads as `off`, anything else as `on`. */
  function ValueFromSwifty(n: int): (r: Value)
    ensures r == Off <==> n == 0
  {
    if n == 0 then Off else On
  }

  /** `Value.swifty`: `off` is 0, `on` is 1. */
  function ValueToSwifty(v: Value): (r: int)
    ensures r == 0 || r == 1
    ensures r == 0 <==> v == Off
    ensures ValueFromSwifty(r) == v
  {
    match v
    case Off => 0
    case On => 1
  }

  /** A level read back as a `Value` and converted again is normalised to
      0 or 1, keeping whether it was zero. */
  lemma ValueSwiftyNormalises(n: int)
    ensures ValueToSwifty(ValueFromSwifty(n)) == if n == 0 then 0 else 1
  {
  }

  // ------------------------------------------------------------ Direction

  /** `GPIO.Direction`. */
  datatype Direction = In | Out

  /** `Direction(swifty:)`. */
  function DirectionFromSwifty(d: Backend.GpioDirection): (r: Direction)
    ensures r == In <==> d == Backend.IN
    ensures r == Out <==> d == Backend.OUT
  {
    match d
    case IN => In
    case OUT => Out
  }

  /** `Direction.swifty`; `Direction(swifty:)` undoes it. */
  function DirectionToSwifty(d: Direction): (r: Backend.GpioDirection)
    ensures DirectionFromSwifty(r) == d
  {
    match d
    case In => Backend.IN
    case Out => Backend.OUT
  }

  /** The two direction conversions are mutually inverse. */
  lemma DirectionBijection(d: Direction, g: Backend.GpioDirection)
    ensures DirectionFromSwifty(DirectionToSwifty(d)) == d
    ensures DirectionToSwifty(DirectionFromSwifty(g)) == g
  {
  }

  // ----------------------------------------------------------------- Pull

  /** `GPIO.Pull`. */
  datatype Pull = Up | Down | Neither

  /** `Pull(swifty:)`. */
  function PullFromSwifty(p: Backend.GpioPull): (r: Pull)
    ensures r == Up <==> p == Backend.PullUp
    ensures r == Down <==> p == Backend.PullDown
    ensures r == Neither <==> p == Backend.PullNeither
  {
    match p
    case PullNeither => Neither
    case PullDown => Down
    case PullUp => Up
  }

  /** `Pull.swifty`; `Pull(swifty:)` undoes it. */
  function PullToSwifty(p: Pull): (r: Backend.GpioPull)
    ensures PullFromSwifty(r) == p
  {
    match p
    case Up => Backend.PullUp
    case Down => Backend.PullDown
    case Neither => Backend.PullNeither
  }

  /** The two pull conversions are mutually inverse. */
  lemma PullBijection(p: Pull, g: Backend.GpioPull)
    ensures PullFromSwifty(PullToSwifty(p)) == p
    ensures PullToSwifty(PullFromSwifty(g)) == g
  {
  }

  // --------------------------------------------------------------- Handle

  /** A pin handle: its identity, the pin it controls and its direction.
      Value and pull live in the backend. */
  datatype GPIO = GPIO(id: ObjectId, pin: Pin, direction: Direction)

  /** The backend line a handle drives. */
  function LineOf(h: GPIO): Backend.GpioName
  {
    Swifty(h.pin)
  }

  /** The `value` getter: the backend level of the handle's line. */
  function ReadValue(s: Backend.State, h: GPIO): (r: Value)
    ensures r == Off <==> Backend.LineState(s, LineOf(h)).level == 0
    ensures r == On <==> Backend.LineState(s, LineOf(h)).level != 0
  {
    ValueFromSwifty(Backend.LineState(s, LineOf(h)).level)
  }

  /** The `pull` getter: the backend pull of the handle's line. */
  function ReadPull(s: Backend.State, h: GPIO): (r: Pull)
    ensures PullToSwifty(r) == Backend.LineState(s, LineOf(h)).pull
  {
    PullFromSwifty(Backend.LineState(s, LineOf(h)).pull)
  }

  /** The backend state differs from `s` on line `n` at most. */
  ghost predicate OnlyLineChanged(s: Backend.State, s': Backend.State, n: Backend.GpioName)
  {
    && s'.duty == s.duty && s'.tone == s.tone && s'.mode == s.mode && s'.range == s.range
    && n in s'.lines
    && (forall m :: m in s.lines && m != n ==> m in s'.lines && s'.lines[m] == s.lines[m])
    && (forall m :: m in s'.lines && m != n ==> m in s.lines)
  }

  /** The `value` setter: drives the line at once, and the getter reads the
      new value back; the line's direction and pull, and everything else in
      the backend, are unchanged. */
  function SetValue(h: GPIO, v: Value): (r: seq<Backend.Event>)
    ensures |r| == 1
    ensures forall s :: ReadValue(Backend.Run(s, r), h) == v
    ensures forall s :: OnlyLineChanged(s, Backend.Run(s, r), LineOf(h))
    ensures forall s :: ReadPull(Backend.Run(s, r), h) == ReadPull(s, h)
    ensures forall s :: Backend.LineState(Backend.Run(s, r), LineOf(h)) == Backend.LineState(s, LineOf(h)).(level := ValueToSwifty(v))
  {
    var r := [Backend.WriteValue(LineOf(h), ValueToSwifty(v))];
    assert forall s :: Backend.Run(s, r) == Backend.Apply(s, r[0]) by {
      forall s ensures Backend.Run(s, r) == Backend.Apply(s, r[0]) { Backend.RunOne(s, r[0]); }
    }
    r
  }

  /** The `pull` setter: accepted in either direction, propagated at once,
      and read back by the getter; the line's level and direction, and every
      other line, are untouched. */
  function SetPull(h: GPIO, p: Pull): (r: seq<Backend.Event>)
    ensures forall s :: ReadPull(Backend.Run(s, r), h) == p
    ensures forall s :: OnlyLineChanged(s, Backend.Run(s, r), LineOf(h))
    ensures forall s :: ReadValue(Backend.Run(s, r), h) == ReadValue(s, h)
    ensures forall s :: Backend.LineState(Backend.Run(s, r), LineOf(h)) == Backend.LineState(s, LineOf(h)).(pull := PullToSwifty(p))
  {
    var r := [Backend.SetPull(LineOf(h), PullToSwifty(p))];
    assert forall s :: Backend.Run(s, r) == Backend.Apply(s, r[0]) by {
      forall s ensures Backend.Run(s, r) == Backend.Apply(s, r[0]) { Backend.RunOne(s, r[0]); }
    }
    r
  }

  /** A handle together with the backend operations that produced it. */
  datatype Configured = Configured(gpio: GPIO, events: seq<Backend.Event>)

  /** The `direction` setter (its `didSet`): the handle remembers the new
      direction and the line's mode is reconfigured at once; the line's level
      and pull, and every other line, are untouched. */
  function SetDirection(h: GPIO, d: Direction): (r: Configured)
    ensures r.gpio.id == h.id && r.gpio.pin == h.pin && r.gpio.direction == d
    ensures forall s :: Backend.LineState(Backend.Run(s, r.events), LineOf(h)).direction == DirectionToSwifty(d)
    ensures forall s :: OnlyLineChanged(s, Backend.Run(s, r.events), LineOf(h))
    ensures forall s :: ReadValue(Backend.Run(s, r.events), h) == ReadValue(s, h)
    ensures forall s :: Backend.LineState(Backend.Run(s, r.events), LineOf(h)) == Backend.LineState(s, LineOf(h)).(direction := DirectionToSwifty(d))
  {
    var es := [Backend.SetDirection(LineOf(h), DirectionToSwifty(d))];
    assert forall s :: Backend.Run(s, es) == Backend.Apply(s, es[0]) by {
      forall s ensures Backend.Run(s, es) == Backend.Apply(s, es[0]) { Backend.RunOne(s, es[0]); }
    }
    Configured(h.(direction := d), es)
  }

  /** `GPIO.init`. Assigning the stored `direction` inside the initialiser
      does not run its `didSet`, while assigning the computed `value` runs
      its setter; the explicit writes follow. Afterwards the line has the
      requested direction and reads the requested value. */
  function Init(id: ObjectId, pin: Pin, direction: Direction, value: Value): (r: Configured)
    ensures r.gpio == GPIO(id, pin, direction)
    ensures forall s :: InitEffect(s, r, direction, value)
  {
    var h := GPIO(id, pin, direction);
    var es := SetValue(h, value) + [Backend.SetDirection(LineOf(h), DirectionToSwifty(direction))] + SetValue(h, value);
    var r := Configured(h, es);
    assert forall s :: InitEffect(s, r, direction, value) by {
      forall s ensures InitEffect(s, r, direction, value) { InitSteps(s, h, value); }
    }
    r
  }

  /** What `Init` leaves behind on a backend that started as `s`. */
  ghost predicate InitEffect(s: Backend.State, r: Configured, direction: Direction, value: Value)
  {
    var s' := Backend.Run(s, r.events);
    && Backend.LineState(s', LineOf(r.gpio)).direction == DirectionToSwifty(direction)
    && ReadValue(s', r.gpio) == value
    && Backend.LineState(s', LineOf(r.gpio)).pull == Backend.LineState(s, LineOf(r.gpio)).pull
    && OnlyLineChanged(s, s', LineOf(r.gpio))
  }

  lemma InitSteps(s: Backend.State, h: GPIO, value: Value)
    ensures var es := SetValue(h, value) + [Backend.SetDirection(LineOf(h), DirectionToSwifty(h.direction))] + SetValue(h, value);
            InitEffect(s, Configured(h, es), h.direction, value)
  {
    var n := LineOf(h);
    var w := Backend.WriteValue(n, ValueToSwifty(value));
    var d := Backend.SetDirection(n, DirectionToSwifty(h.direction));
    assert SetValue(h, value) == [w];
    Backend.RunAppend(s, [w] + [d], [w]);
    Backend.RunAppend(s, [w], [d]);
    Backend.RunOne(s, w);
    var s1 := Backend.Apply(s, w);
    Backend.RunOne(s1, d);
    var s2 := Backend.Apply(s1, d);
    Backend.RunOne(s2, w);
    var s3 := Backend.Apply(s2, w);
    assert Backend.LineState(s3, n).direction == DirectionToSwifty(h.direction);
    assert Backend.LineState(s3, n).level == ValueToSwifty(value);
    assert Backend.LineState(s3, n).pull == Backend.LineState(s, n).pull;
    LineEventChangesOnlyLine(s, w, n);
    LineEventChangesOnlyLine(s1, d, n);
    LineEventChangesOnlyLine(s2, w, n);
    OnlyLineChangedTransitive(s, s1, s2, n);
    OnlyLineChangedTransitive(s, s2, s3, n);
  }

  /** A direction, level or pull write to line `n` changes only that line. */
  lemma LineEventChangesOnlyLine(s: Backend.State, e: Backend.Event, n: Backend.GpioName)
    requires (e.SetDirection? || e.WriteValue?) && e.line == n
    ensures OnlyLineChanged(s, Backend.Apply(s, e), n)
  {
  }

  /** Two steps that each change only line `n` together change only `n`. */
  lemma OnlyLineChangedTransitive(a: Backend.State, b: Backend.State, c: Backend.State, n: Backend.GpioName)
    requires OnlyLineChanged(a, b, n) && OnlyLineChanged(b, c, n)
    ensures OnlyLineChanged(a, c, n)
  {
  }

  /** `deinit`: an output pin is driven off through the `value` setter; an
      input pin gets no backend operation at all. Only the level of the
      handle's line changes; its direction and pull are kept. */
  function Deinit(h: GPIO): (r: seq<Backend.Event>)
    ensures r == [] <==> h.direction == In
    ensures h.direction == Out ==> forall s :: ReadValue(Backend.Run(s, r), h) == Off
    ensures forall s :: r != [] ==> OnlyLineChanged(s, Backend.Run(s, r), LineOf(h))
    ensures h.direction == Out ==>
              forall s :: Backend.LineState(Backend.Run(s, r), LineOf(h)) == Backend.LineState(s, LineOf(h)).(level := 0)
    ensures h.direction == In ==> forall s :: Backend.Run(s, r) == s
  {
    match h.direction
    case In => []
    case Out => SetValue(h, Off)
  }

  /** The last strong reference to a handle disappears: it leaves the live
      set and its `deinit` runs. */
  function Drop(heap: Heap, h: GPIO): (r: (Heap, seq<Backend.Event>))
    ensures r.0.alive == heap.alive - {h.id}
    ensures r.1 == [] <==> h.direction == In
    ensures h.direction == Out ==> forall s :: ReadValue(Backend.Run(s, r.1), h) == Off
    ensures h.direction == Out ==>
              forall s :: && OnlyLineChanged(s, Backend.Run(s, r.1), LineOf(h))
                          && Backend.LineState(Backend.Run(s, r.1), LineOf(h)) == Backend.LineState(s, LineOf(h)).(level := 0)
    ensures h.direction == In ==> forall s :: Backend.Run(s, r.1) == s
  {
    (Release(heap, h.id), Deinit(h))
  }
}

=== FILE: gpio_controller.dfy ===
/** `GPIOController`: the older pin registry. It has no table of backend
    lines, and although its `Error` enumeration and documentation include
    `pinNotFound`, no path of its `gpio` throws it. */
module GpioController {
  import opened Wrappers
  import opened Weak
  import opened Leases
  import opened Gpio
  import opened PinLeases
  import Gpios
  import Backend

  /** `GPIOController.gpio(pin:direction:value:)`: refused only while a live
      handle holds the pin; a stale entry is replaced by the new handle. */
  function Lease(gpios: Table<Pin>, heap: Heap, pin: Pin, direction: Direction, value: Value): (r: Leased)
    ensures r.result.Failure? <==> InUse(gpios, heap.alive, pin)
    ensures r.result.Failure? ==> r.result == Failure(PinInUse(pin)) && r.gpios == gpios && r.heap == heap && r.events == []
    ensures SameExcept(gpios, r.gpios, pin)
    ensures r.result.Success? ==>
              && r.result.value.pin == pin && r.result.value.direction == direction
              && r.result.value.id !in heap.alive
              && r.heap.alive == heap.alive + {r.result.value.id}
              && pin in r.gpios && r.gpios[pin] == WeakRef(r.result.value.id)
              && forall s :: InitEffect(s, Configured(r.result.value, r.events), direction, value)
  {
    match Reclaim(gpios, heap.alive, pin)
    case None => Leased(gpios, heap, Failure(PinInUse(pin)), [])
    case Some(cleared) => Issue(cleared, heap, pin, direction, value)
  }

  /** Contrary to its documentation, the controller never throws
      `pinNotFound`: a pin without a live handle is always leased. */
  lemma NeverNotFound(gpios: Table<Pin>, heap: Heap, pin: Pin, direction: Direction, value: Value)
    ensures Lease(gpios, heap, pin, direction, value).result != Failure(PinNotFound(pin))
    ensures !InUse(gpios, heap.alive, pin) ==> Lease(gpios, heap, pin, direction, value).result.Success?
  {
  }

  /** On a pin the board has, the two registries behave identically over the
      same table and heap; on any other pin `GPIOs` refuses what the
      controller grants. */
  lemma AgreesWithGpios(names: set<Backend.GpioName>, gpios: Table<Pin>, heap: Heap, pin: Pin, direction: Direction, value: Value)
    ensures Swifty(pin) in names ==>
              Gpios.Lease(Gpios.Gpios(names, gpios), heap, pin, direction, value) == Lease(gpios, heap, pin, direction, value)
    ensures Swifty(pin) !in names && Lease(gpios, heap, pin, direction, value).result.Success? ==>
              Gpios.Lease(Gpios.Gpios(names, gpios), heap, pin, direction, value).result == Failure(PinNotFound(pin))
  {
  }

  /** The controller keeps the same exclusivity invariant as `GPIOs`. */
  lemma LeaseKeepsExclusive(gpios: Table<Pin>, heap: Heap, grants: set<Grant<Pin>>, pin: Pin, direction: Direction, value: Value)
    requires Registered(gpios, heap, grants)
    ensures var r := Lease(gpios, heap, pin, direction, value);
            Registered(r.gpios, r.heap, Granted(grants, r))
  {
  }
}

=== FILE: gpios.dfy ===
/** `GPIOs`: the pin registry that also looks the pin up in the board's
    table of backend lines. */
module Gpios {
  import opened Wrappers
  import opened Weak
  import opened Leases
  import opened Gpio
  import opened PinLeases
  import Backend

  /** The registry: the backend lines the board has (`swiftyGPIOs`, which
      `gpio` never changes) and the weak table of issued handles. */
  datatype Gpios = Gpios(swiftyGpios: set<Backend.GpioName>, gpios: Table<Pin>)

  /** `GPIOs.gpio(pin:direction:value:)`. The in-use check comes first; a
      stale entry is cleared before the board lookup, so it stays cleared
      even when the lookup fails. */
  function Lease(reg: Gpios, heap: Heap, pin: Pin, direction: Direction, value: Value): (r: Leased)
    ensures r.result == Failure(PinInUse(pin)) <==> InUse(reg.gpios, heap.alive, pin)
    ensures r.result == Failure(PinNotFound(pin)) <==> !InUse(reg.gpios, heap.alive, pin) && Swifty(pin) !in reg.swiftyGpios
    ensures r.result.Failure? ==> r.result.error.pin == pin && r.heap == heap && r.events == []
    ensures r.result == Failure(PinInUse(pin)) ==> r.gpios == reg.gpios
    ensures r.result == Failure(PinNotFound(pin)) ==> pin !in r.gpios
    ensures SameExcept(reg.gpios, r.gpios, pin)
    ensures r.result.Success? ==>
              && r.result.value.pin == pin && r.result.value.direction == direction
              && r.result.value.id !in heap.alive
              && r.heap.alive == heap.alive + {r.result.value.id}
              && pin in r.gpios && r.gpios[pin] == WeakRef(r.result.value.id)
              && forall s :: InitEffect(s, Configured(r.result.value, r.events), direction, value)
  {
    match Reclaim(reg.gpios, heap.alive, pin)
    case None => Leased(reg.gpios, heap, Failure(PinInUse(pin)), [])
    case Some(cleared) =>
      if Swifty(pin) !in reg.swiftyGpios then
        Leased(cleared, heap, Failure(PinNotFound(pin)), [])
      else
        Issue(cleared, heap, pin, direction, value)
  }

  /** Every key of the table is a pin the board has. */
  ghost predicate KeysOnBoard(reg: Gpios)
  {
    forall p :: p in reg.gpios ==> Swifty(p) in reg.swiftyGpios
  }

  /** At most one live handle per pin: a lease keeps the invariant that
      every live handle ever issued is the one recorded for its pin, and
      keeps every recorded pin on the board. */
  lemma LeaseKeepsExclusive(reg: Gpios, heap: Heap, grants: set<Grant<Pin>>, pin: Pin, direction: Direction, value: Value)
    requires Registered(reg.gpios, heap, grants)
    requires KeysOnBoard(reg)
    ensures var r := Lease(reg, heap, pin, direction, value);
            && Registered(r.gpios, r.heap, Granted(grants, r))
            && KeysOnBoard(reg.(gpios := r.gpios))
  {
  }

  /** A second lease of a pin whose handle is still alive is refused with
      `pinInUse`, whatever direction and value it asks for. */
  lemma LeaseWhileAliveFails(reg: Gpios, heap: Heap, pin: Pin, d1: Direction, v1: Value, d2: Direction, v2: Value)
    requires Lease(reg, heap, pin, d1, v1).result.Success?
    ensures var r1 := Lease(reg, heap, pin, d1, v1);
            Lease(reg.(gpios := r1.gpios), r1.heap, pin, d2, v2).result == Failure(PinInUse(pin))
  {
  }

  /** Once the handle is dropped the pin can be leased again, without any
      explicit release. */
  lemma LeaseAfterDropSucceeds(reg: Gpios, heap: Heap, pin: Pin, d1: Direction, v1: Value, d2: Direction, v2: Value)
    requires Lease(reg, heap, pin, d1, v1).result.Success?
    ensures var r1 := Lease(reg, heap, pin, d1, v1);
            var dropped := Drop(r1.heap, r1.result.value).0;
            Lease(reg.(gpios := r1.gpios), dropped, pin, d2, v2).result.Success?
  {
  }

  /** A pin the board does not have is refused with `pinNotFound`, never
      `pinInUse`, whatever was leased before. */
  lemma MissingPinIsNotFound(reg: Gpios, heap: Heap, pin: Pin, direction: Direction, value: Value)
    requires KeysOnBoard(reg)
    requires Swifty(pin) !in reg.swiftyGpios
    ensures Lease(reg, heap, pin, direction, value).result == Failure(PinNotFound(pin))
  {
  }
}

=== FILE: hardware_pwm.dfy ===
/** Hardware PWM: four pins share two PWM channels, and a second lease
    registry, keyed by channel, hands out at most one live session per
    channel. A session programs the channel's registers when created and
    resets them when it goes away. */
module HardwarePwm {
  import opened Wrappers
  import opened Weak
  import opened Leases
  import opened Ints
  import opened Gpio
  import opened Sequences
  import Backend

  /** The hardware-capable pins, in declaration order. */
  datatype HardwarePin = Gpio12 | Gpio18 | Gpio13 | Gpio19

  /** `HardwarePin.allCases`. */
  const AllCases: seq<HardwarePin> := [Gpio12, Gpio18, Gpio13, Gpio19]

  datatype Channel = One | Two

  /** `HardwarePin.pin`. */
  function PinOf(hp: HardwarePin): (r: Pin)
    ensures r == 12 || r == 13 || r == 18 || r == 19
  {
    match hp
    case Gpio12 => 12
    case Gpio13 => 13
    case Gpio18 => 18
    case Gpio19 => 19
  }

  /** `HardwarePin.channel`: 12 and 18 share channel one, 13 and 19 channel
      two. */
  function ChannelOf(hp: HardwarePin): (c: Channel)
    ensures c == One <==> PinOf(hp) == 12 || PinOf(hp) == 18
    ensures c == Two <==> PinOf(hp) == 13 || PinOf(hp) == 19
  {
    match hp
    case Gpio12 | Gpio18 => One
    case Gpio13 | Gpio19 => Two
  }

  /** Each hardware-capable pin is matched by exactly one `HardwarePin`. */
  lemma PinOfInjective(a: HardwarePin, b: HardwarePin)
    ensures PinOf(a) == PinOf(b) ==> a == b
  {
  }

  /** `allCases.first(where: { $0.pin == pin })`. */
  function Find(pin: Pin): (r: Option<HardwarePin>)
    ensures r.Some? <==> pin == 12 || pin == 13 || pin == 18 || pin == 19
    ensures r.Some? ==> PinOf(r.value) == pin
  {
    var r := FirstMapped(AllCases, hp => if PinOf(hp) == pin then Some(hp) else None);
    assert forall i :: 0 <= i < |AllCases| ==> PinOf(AllCases[i]) in {12 as Pin, 18, 13, 19};
    assert pin == 12 ==> PinOf(AllCases[0]) == pin;
    assert pin == 18 ==> PinOf(AllCases[1]) == pin;
    assert pin == 13 ==> PinOf(AllCases[2]) == pin;
    assert pin == 19 ==> PinOf(AllCases[3]) == pin;
    r
  }

  /** The channel each pin aliases. */
  lemma ChannelTable()
    ensures Find(12) == Some(Gpio12) && ChannelOf(Gpio12) == One
    ensures Find(18) == Some(Gpio18) && ChannelOf(Gpio18) == One
    ensures Find(13) == Some(Gpio13) && ChannelOf(Gpio13) == Two
    ensures Find(19) == Some(Gpio19) && ChannelOf(Gpio19) == Two
  {
  }

  // -------------------------------------------------------------- Session

  /** `HardwarePulseWidthModulation`: its identity, its pin and its duty in
      percent (a Swift `Float`, modelled as a real). */
  datatype Session = Session(id: ObjectId, pin: HardwarePin, duty: real)

  /** The register address of a pin; the board's address table is not part
      of this model, so registers are addressed by the pin's line name. */
  function AddressOf(hp: HardwarePin): Backend.GpioName
  {
    Swifty(PinOf(hp))
  }

  /** The cycle length every session programs. */
  const Range: int := 1024

  /** Creation: duty register zeroed, range 1024, pin mode PWM output, in
      that order, so the mode switches only once the registers are set. The
      initial `duty = 0` of the stored property does not write. */
  function Construct(id: ObjectId, hp: HardwarePin): (r: (Session, seq<Backend.Event>))
    ensures r.0 == Session(id, hp, 0.0)
    ensures forall s :: Programmed(Backend.Run(s, r.1), AddressOf(hp))
    ensures |r.1| == 3 && r.1[2] == Backend.ChangeMode(AddressOf(hp), Backend.PwmOutput)
    ensures forall s :: RegistersBeforeMode(s, Backend.Run(s, r.1[..2]), AddressOf(hp))
    ensures forall s :: Backend.Run(s, r.1) == ProgrammedFrom(s, AddressOf(hp))
  {
    var a := AddressOf(hp);
    var es := [Backend.PwmWrite(a, 0), Backend.PwmSetRange(Range), Backend.ChangeMode(a, Backend.PwmOutput)];
    assert forall s :: Programmed(Backend.Run(s, es), a) && RegistersBeforeMode(s, Backend.Run(s, es[..2]), a)
                       && Backend.Run(s, es) == ProgrammedFrom(s, a) by {
      forall s ensures Programmed(Backend.Run(s, es), a) && RegistersBeforeMode(s, Backend.Run(s, es[..2]), a)
                       && Backend.Run(s, es) == ProgrammedFrom(s, a) {
        assert es == [es[0]] + [es[1]] + [es[2]];
        assert es[..2] == [es[0]] + [es[1]];
        Backend.RunAppend(s, [es[0]] + [es[1]], [es[2]]);
        Backend.RunAppend(s, [es[0]], [es[1]]);
        Backend.RunOne(s, es[0]);
        Backend.RunOne(Backend.Apply(s, es[0]), es[1]);
        Backend.RunOne(Backend.Apply(Backend.Apply(s, es[0]), es[1]), es[2]);
      }
    }
    (Session(id, hp, 0.0), es)
  }

  /** `s` with address `a` programmed for output and nothing else changed:
      its duty register 0, the shared range 1024, its mode PWM output. */
  function ProgrammedFrom(s: Backend.State, a: Backend.GpioName): Backend.State
  {
    s.(duty := s.duty[a := 0], range := Range, mode := s.mode[a := Backend.PwmOutput])
  }

  /** `s` with address `a` silenced and switched off and nothing else
      changed: its duty register and tone 0, its mode off. */
  function InertFrom(s: Backend.State, a: Backend.GpioName): Backend.State
  {
    s.(duty := s.duty[a := 0], tone := s.tone[a := 0], mode := s.mode[a := Backend.ModeOff])
  }

  /** A channel ready to output: duty zero, range 1024, PWM mode. */
  ghost predicate Programmed(s: Backend.State, a: Backend.GpioName)
  {
    a in s.duty && s.duty[a] == 0 && s.range == Range && a in s.mode && s.mode[a] == Backend.PwmOutput
  }

  /** The registers set while the pin mode is still what it was. */
  ghost predicate RegistersBeforeMode(s: Backend.State, t: Backend.State, a: Backend.GpioName)
  {
    a in t.duty && t.duty[a] == 0 && t.range == Range && t.mode == s.mode
  }

  /** Duty and tone zeroed while the pin mode is still what it was. */
  ghost predicate SilencedBeforeMode(s: Backend.State, t: Backend.State, a: Backend.GpioName)
  {
    a in t.duty && t.duty[a] == 0 && a in t.tone && t.tone[a] == 0 && t.mode == s.mode
  }

  /** A channel left inert: duty and tone zero, pin mode off. */
  ghost predicate Inert(s: Backend.State, a: Backend.GpioName)
  {
    a in s.duty && s.duty[a] == 0 && a in s.tone && s.tone[a] == 0 && a in s.mode && s.mode[a] == Backend.ModeOff
  }

  /** `deinit`: duty zeroed, tone frequency zeroed, pin mode off, in that
      order, so the pin leaves PWM mode already silent. */
  function Deinit(p: Session): (r: seq<Backend.Event>)
    ensures forall s :: Inert(Backend.Run(s, r), AddressOf(p.pin))
    ensures |r| == 3 && r[2] == Backend.ChangeMode(AddressOf(p.pin), Backend.ModeOff)
    ensures forall s :: SilencedBeforeMode(s, Backend.Run(s, r[..2]), AddressOf(p.pin))
    ensures forall s :: Backend.Run(s, r) == InertFrom(s, AddressOf(p.pin))
  {
    var a := AddressOf(p.pin);
    var es := [Backend.PwmWrite(a, 0), Backend.PwmWriteTone(a, 0), Backend.ChangeMode(a, Backend.ModeOff)];
    assert forall s :: Inert(Backend.Run(s, es), a) && SilencedBeforeMode(s, Backend.Run(s, es[..2]), a)
                       && Backend.Run(s, es) == InertFrom(s, a) by {
      forall s ensures Inert(Backend.Run(s, es), a) && SilencedBeforeMode(s, Backend.Run(s, es[..2]), a)
                       && Backend.Run(s, es) == InertFrom(s, a) {
        assert es == [es[0]] + [es[1]] + [es[2]];
        assert es[..2] == [es[0]] + [es[1]];
        Backend.RunAppend(s, [es[0]] + [es[1]], [es[2]]);
        Backend.RunAppend(s, [es[0]], [es[1]]);
        Backend.RunOne(s, es[0]);
        Backend.RunOne(Backend.Apply(s, es[0]), es[1]);
        Backend.RunOne(Backend.Apply(Backend.Apply(s, es[0]), es[1]), es[2]);
      }
    }
    es
  }

  /** A session's life as one trace: the channel is ready to output once
      the session exists, and whatever happens to the registers meanwhile,
      its end leaves the channel inert. */
  lemma SessionCleansUp(s: Backend.State, id: ObjectId, hp: HardwarePin, during: seq<Backend.Event>)
    ensures var (p, created) := Construct(id, hp);
            Programmed(Backend.Run(s, created), AddressOf(hp))
    ensures var (p, created) := Construct(id, hp);
            Inert(Backend.Run(s, created + during + Deinit(p)), AddressOf(hp))
  {
    var (p, created) := Construct(id, hp);
    Backend.RunAppend(s, created + during, Deinit(p));
  }

  /** The duty register value for a duty in percent: `Int32(1024 * duty /
      100)`, truncating toward zero and trapping when out of `Int32`. */
  function DutyRegister(duty: real): (r: Option<int32>)
    ensures 0.0 <= duty <= 100.0 ==> r.Some? && 0 <= r.value as int <= Range
  {
    ToInt32(1024.0 * duty / 100.0)
  }

  /** Larger duties never program a smaller register value. */
  lemma DutyRegisterMonotone(d1: real, d2: real)
    requires 0.0 <= d1 <= d2 <= 100.0
    ensures DutyRegister(d1).value <= DutyRegister(d2).value
  {
  }

  /** Assigning `duty`: the session keeps the value (there is no range
      check) and writes the scaled register value at once; nothing but that
      one duty register changes. */
  function SetDuty(p: Session, duty: real): (r: Option<(Session, seq<Backend.Event>)>)
    ensures r.Some? <==> DutyRegister(duty).Some?
    ensures r.Some? ==> r.value.0 == p.(duty := duty)
    ensures r.Some? ==> forall s :: var s' := Backend.Run(s, r.value.1);
              AddressOf(p.pin) in s'.duty && s'.duty[AddressOf(p.pin)] == DutyRegister(duty).value as int
    ensures r.Some? ==> forall s :: Backend.Run(s, r.value.1) == s.(duty := s.duty[AddressOf(p.pin) := DutyRegister(duty).value as int])
  {
    match DutyRegister(duty)
    case None => None
    case Some(v) =>
      var es := [Backend.PwmWrite(AddressOf(p.pin), v as int)];
      assert forall s :: Backend.Run(s, es) == Backend.Apply(s, es[0]) by {
        forall s ensures Backend.Run(s, es) == Backend.Apply(s, es[0]) { Backend.RunOne(s, es[0]); }
      }
      Some((p.(duty := duty), es))
  }

  // ----------------------------------------------------------- Controller

  /** `PulseWidthModulationError`. */
  datatype PwmError = NotFound | InUse

  /** A channel lease's outcome: the channel table and heap afterwards, the
      session or error, and the register operations performed. */
  datatype PwmLeased = PwmLeased(channels: Table<Channel>, heap: Heap, result: Result<Session, PwmError>, events: seq<Backend.Event>)

  /** `HardwarePulseWidthModulationController.pwm(named:)`. The pin lookup
      comes first; the in-use check and reclaim are on the pin's channel, so
      a session obtained through the aliasing pin also refuses the lease. */
  function Lease(channels: Table<Channel>, heap: Heap, pin: Pin): (r: PwmLeased)
    ensures r.result == Failure(NotFound) <==> Find(pin).None?
    ensures r.result == Failure(InUse) <==> Find(pin).Some? && Leases.InUse(channels, heap.alive, ChannelOf(Find(pin).value))
    ensures r.result.Failure? ==> r.channels == channels && r.heap == heap && r.events == []
    ensures r.result.Success? ==>
              && r.result.value.pin == Find(pin).value
              && r.result.value.id !in heap.alive
              && r.heap.alive == heap.alive + {r.result.value.id}
              && var c := ChannelOf(r.result.value.pin);
              && c in r.channels && r.channels[c] == WeakRef(r.result.value.id)
              && SameExcept(channels, r.channels, c)
              && forall s :: Programmed(Backend.Run(s, r.events), AddressOf(r.result.value.pin))
    ensures r.result.Success? ==> (r.result.value, r.events) == Construct(r.result.value.id, r.result.value.pin)
    ensures r.result.Success? ==>
              && r.result.value.duty == 0.0
              && forall s :: Backend.Run(s, r.events) == ProgrammedFrom(s, AddressOf(r.result.value.pin))
  {
    match Find(pin)
    case None => PwmLeased(channels, heap, Failure(NotFound), [])
    case Some(hp) =>
      match Reclaim(channels, heap.alive, ChannelOf(hp))
      case None => PwmLeased(channels, heap, Failure(InUse), [])
      case Some(cleared) =>
        var (heap', id) := Allocate(heap);
        var (session, es) := Construct(id, hp);
        PwmLeased(cleared[ChannelOf(hp) := WeakRef(id)], heap', Success(session), es)
  }

  /** Two pins on the same channel exclude each other: while the session
      leased through one lives, leasing the other is refused with `inUse`. */
  lemma AliasIsInUse(channels: Table<Channel>, heap: Heap, pin: Pin, alias: Pin)
    requires Lease(channels, heap, pin).result.Success?
    requires Find(alias).Some? && ChannelOf(Find(alias).value) == ChannelOf(Find(pin).value)
    ensures var r := Lease(channels, heap, pin);
            Lease(r.channels, r.heap, alias).result == Failure(InUse)
  {
  }

  /** The channel of a dropped session can be leased again through either
      of its pins. */
  lemma LeaseAfterReleaseSucceeds(channels: Table<Channel>, heap: Heap, pin: Pin, alias: Pin)
    requires Lease(channels, heap, pin).result.Success?
    requires Find(alias).Some? && ChannelOf(Find(alias).value) == ChannelOf(Find(pin).value)
    ensures var r := Lease(channels, heap, pin);
            Lease(r.channels, Release(r.heap, r.result.value.id), alias).result.Success?
  {
  }

  /** At most one live session per channel: a lease keeps the invariant
      that every live session ever issued is the one recorded for its
      channel. */
  lemma LeaseKeepsExclusive(channels: Table<Channel>, heap: Heap, grants: set<Grant<Channel>>, pin: Pin)
    requires Registered(channels, heap, grants)
    ensures var r := Lease(channels, heap, pin);
            Registered(r.channels, r.heap,
              if r.result.Success? then grants + {Grant(ChannelOf(r.result.value.pin), r.result.value.id)} else grants)
  {
  }
}

=== FILE: i2c.dfy ===
/** The I2C bus probe and register read. The WiringPi I2C primitives are
    oracles: the model is given what opening a device, writing a byte and
    reading a register return, and computes what the library does with
    those answers. */
module I2C {
  import opened Wrappers
  import opened Ints
  import opened Sequences

  /** `I2C.Device`. */
  datatype Device = Old | New

  /** `Device.path`. */
  function Path(d: Device): (r: string)
    ensures d == Old ==> r == "/dev/i2c-0"
    ensures d == New ==> r == "/dev/i2c-1"
  {
    match d
    case Old => "/dev/i2c-0"
    case New => "/dev/i2c-1"
  }

  /** The two devices have different paths. */
  lemma PathInjective(a: Device, b: Device)
    ensures Path(a) == Path(b) ==> a == b
  {
  }

  /** `I2C.Pin`: the register of an analogue input. */
  datatype RegisterPin = A0 | A1 | A2 | A3 | A4 | A5 | A6 | A7

  /** The inverse of `RawValue`. */
  function PinOfRaw(n: int32): Option<RegisterPin>
  {
    match n
    case 0 => Some(A0)
    case 1 => Some(A1)
    case 2 => Some(A2)
    case 3 => Some(A3)
    case 4 => Some(A4)
    case 5 => Some(A5)
    case 6 => Some(A6)
    case 7 => Some(A7)
    case _ => None
  }

  /** `Pin.rawValue`: `a<i>` is register `i`, always in 0..7. */
  function RawValue(p: RegisterPin): (r: int32)
    ensures 0 <= r <= 7
    ensures PinOfRaw(r) == Some(p)
  {
    match p
    case A0 => 0
    case A1 => 1
    case A2 => 2
    case A3 => 3
    case A4 => 4
    case A5 => 5
    case A6 => 6
    case A7 => 7
  }

  /** An opened I2C connection (`WiringPi.I2C.FileHandle`). */
  datatype FileHandle = FileHandle(fd: int32)

  /** What the WiringPi I2C calls answer: `setupInterface(device:deviceId:)`,
      `setup(deviceId:)`, `write(_:data:)` and `readReg8(_:register:)`. */
  datatype Wire = Wire(
    setupInterface: (string, int32) -> Option<FileHandle>,
    setup: int32 -> Option<FileHandle>,
    write: (FileHandle, int32) -> int32,
    readReg8: (FileHandle, int32) -> Option<uint8>)

  /** The candidate bus addresses, in the order they are tried. */
  const Addresses: seq<int32> := [0x48, 0x4b]

  /** `handle(for:)`: a requested device is opened by its path, otherwise
      the default bus is set up. */
  function Connect(w: Wire, device: Option<Device>, addr: int32): (r: Option<FileHandle>)
    ensures device.Some? ==> r == w.setupInterface(Path(device.value), addr)
    ensures device.None? ==> r == w.setup(addr)
  {
    match device
    case Some(d) => w.setupInterface(Path(d), addr)
    case None => w.setup(addr)
  }

  /** A requested device is opened through `setupInterface` alone and the
      default bus through `setup` alone: wires that agree on the oracle the
      request uses connect alike, whatever the other one answers. */
  lemma ConnectUsesOneOracle(w1: Wire, w2: Wire, device: Option<Device>, addr: int32)
    requires device.Some? ==> w1.setupInterface(Path(device.value), addr) == w2.setupInterface(Path(device.value), addr)
    requires device.None? ==> w1.setup(addr) == w2.setup(addr)
    ensures Connect(w1, device, addr) == Connect(w2, device, addr)
  {
  }

  /** The probe of one address: accepted only if a connection opens and a
      zero byte can be written to it with a non-negative result. */
  function Validate(w: Wire, device: Option<Device>, addr: int32): (r: Option<FileHandle>)
    ensures r.Some? <==> Connect(w, device, addr).Some? && w.write(Connect(w, device, addr).value, 0) >= 0
    ensures r.Some? ==> r == Connect(w, device, addr)
  {
    match Connect(w, device, addr)
    case None => None
    case Some(h) => if w.write(h, 0) >= 0 then Some(h) else None
  }

  /** `I2CError`. */
  datatype I2CError = NotReachable

  /** A validated bus. */
  datatype Bus = Bus(fileHandle: FileHandle)

  /** `I2C.init(device:)`: the first address, in order, that validates;
      `notReachable` when none does. */
  function Open(w: Wire, device: Option<Device>): (r: Result<Bus, I2CError>)
    ensures r == Failure(NotReachable) <==> forall i :: 0 <= i < |Addresses| ==> Validate(w, device, Addresses[i]).None?
    ensures Validate(w, device, 0x48).Some? ==> r == Success(Bus(Validate(w, device, 0x48).value))
    ensures Validate(w, device, 0x48).None? && Validate(w, device, 0x4b).Some? ==>
              r == Success(Bus(Validate(w, device, 0x4b).value))
    ensures r.Success? ==> exists i :: 0 <= i < |Addresses| && Validate(w, device, Addresses[i]) == Some(r.value.fileHandle)
  {
    var f := (addr: int32) => Validate(w, device, addr);
    match FirstMapped(Addresses, f)
    case None => Failure(NotReachable)
    case Some(h) => Success(Bus(h))
  }

  /** Two wires that answer the probes alike open the same bus: the outcome
      depends on the wire only through what `Validate` sees at each
      candidate address. */
  lemma OpenDependsOnProbes(w1: Wire, w2: Wire, device: Option<Device>)
    requires forall i :: 0 <= i < |Addresses| ==> Validate(w1, device, Addresses[i]) == Validate(w2, device, Addresses[i])
    ensures Open(w1, device) == Open(w2, device)
  {
    var f1 := (addr: int32) => Validate(w1, device, addr);
    var f2 := (addr: int32) => Validate(w2, device, addr);
    assert forall i :: 0 <= i < |Addresses| ==> f1(Addresses[i]) == f2(Addresses[i]);
    FirstMappedCongruent(Addresses, f1, f2);
  }

  /** Opening a named device never consults `setup`: wires that agree on
      `setupInterface` at the device's path and on writing a zero byte open
      the same bus, whatever `setup` answers. */
  lemma OpenWithDeviceIgnoresSetup(w1: Wire, w2: Wire, d: Device)
    requires forall i :: 0 <= i < |Addresses| ==> w1.setupInterface(Path(d), Addresses[i]) == w2.setupInterface(Path(d), Addresses[i])
    requires forall h: FileHandle :: w1.write(h, 0) == w2.write(h, 0)
    ensures Open(w1, Some(d)) == Open(w2, Some(d))
  {
    forall i | 0 <= i < |Addresses|
      ensures Validate(w1, Some(d), Addresses[i]) == Validate(w2, Some(d), Addresses[i])
    {
      ConnectUsesOneOracle(w1, w2, Some(d), Addresses[i]);
    }
    OpenDependsOnProbes(w1, w2, Some(d));
  }

  /** Opening the default bus never consults `setupInterface`: wires that
      agree on `setup` and on writing a zero byte open the same bus. */
  lemma OpenWithoutDeviceIgnoresInterface(w1: Wire, w2: Wire)
    requires forall i :: 0 <= i < |Addresses| ==> w1.setup(Addresses[i]) == w2.setup(Addresses[i])
    requires forall h: FileHandle :: w1.write(h, 0) == w2.write(h, 0)
    ensures Open(w1, None) == Open(w2, None)
  {
    forall i | 0 <= i < |Addresses|
      ensures Validate(w1, None, Addresses[i]) == Validate(w2, None, Addresses[i])
    {
      ConnectUsesOneOracle(w1, w2, None, Addresses[i]);
    }
    OpenDependsOnProbes(w1, w2, None);
  }

  /** `I2C.init(device:)` as it runs: `tried` lists the addresses probed, in
      order. The probe stops at the first address that validates, so the
      second is tried only when the first fails. */
  method OpenProbing(w: Wire, device: Option<Device>) returns (r: Result<Bus, I2CError>, tried: seq<int32>)
    ensures r == Open(w, device)
    ensures 1 <= |tried| <= |Addresses| && tried == Addresses[..|tried|]
    ensures |tried| == 1 <==> Validate(w, device, 0x48).Some?
  {
    var f := (addr: int32) => Validate(w, device, addr);
    var m, evaluated := FirstMappedLoop(Addresses, f);
    tried := Addresses[..evaluated];
    r := match m
      case None => Failure(NotReachable)
      case Some(h) => Success(Bus(h));
  }

  /** `read(_:)`: the register's byte, or 0 when the read fails. */
  function Read(w: Wire, bus: Bus, pin: RegisterPin): (r: uint8)
    ensures w.readReg8(bus.fileHandle, RawValue(pin)).Some? ==> r == w.readReg8(bus.fileHandle, RawValue(pin)).value
    ensures w.readReg8(bus.fileHandle, RawValue(pin)).None? ==> r == 0
    ensures r != 0 ==> w.readReg8(bus.fileHandle, RawValue(pin)) == Some(r)
    ensures r == 0 <==> w.readReg8(bus.fileHandle, RawValue(pin)) in {None, Some(0)}
  {
    match w.readReg8(bus.fileHandle, RawValue(pin))
    case Some(b) => b
    case None => 0
  }

  /** The read is lossy: a failed read and a register holding 0 give the same
      answer, so a caller cannot tell them apart. */
  lemma FailedReadLooksLikeZero(w1: Wire, w2: Wire, bus: Bus, pin: RegisterPin)
    requires w1.readReg8(bus.fileHandle, RawValue(pin)).None?
    requires w2.readReg8(bus.fileHandle, RawValue(pin)) == Some(0)
    ensures Read(w1, bus, pin) == Read(w2, bus, pin) == 0
  {
  }
}

=== FILE: ints.dfy ===
/** Swift's fixed-width integers. Arithmetic on them traps on overflow;
    a trap is modelled as `None`. */
module Ints {
  import opened Wrappers

  const UINT32_LIMIT: int := 0x1_0000_0000

  newtype uint8 = x: int | 0 <= x < 0x100
  newtype uint32 = x: int | 0 <= x < 0x1_0000_0000
  newtype int32 = x: int | -0x8000_0000 <= x < 0x8000_0000

  /** `a * b` on `UInt32`: the product, or a trap when it does not fit. */
  function Mul(a: uint32, b: uint32): (r: Option<uint32>)
    ensures r.Some? <==> (a as int) * (b as int) < UINT32_LIMIT
    ensures r.Some? ==> r.value as int == (a as int) * (b as int)
  {
    var p := (a as int) * (b as int);
    if p < UINT32_LIMIT then Some(p as uint32) else None
  }

  /** `a - b` on `UInt32`: the difference, or a trap when it would be negative. */
  function Sub(a: uint32, b: uint32): (r: Option<uint32>)
    ensures r.Some? <==> b <= a
    ensures r.Some? ==> r.value as int + b as int == a as int
  {
    if b <= a then Some(a - b) else None
  }

  /** Truncation of a real toward zero, as Swift's float-to-integer
      conversions do. */
  function TruncateTowardZero(x: real): (r: int)
    ensures 0.0 <= x ==> r as real <= x < r as real + 1.0
    ensures x < 0.0 ==> r as real - 1.0 < x <= r as real
  {
    if 0.0 <= x then x.Floor else -((-x).Floor)
  }

  /** `UInt32(x)` for a floating-point `x`: truncation toward zero, trapping
      when the truncated value is not representable. */
  function ToUInt32(x: real): (r: Option<uint32>)
    ensures r.Some? <==> -1.0 < x < UINT32_LIMIT as real
    ensures r.Some? && 0.0 <= x ==> r.value as int == x.Floor
    ensures r.Some? && x < 0.0 ==> r.value == 0
  {
    var t := TruncateTowardZero(x);
    if 0 <= t < UINT32_LIMIT then Some(t as uint32) else None
  }

  /** `Int32(x)` for a floating-point `x`. */
  function ToInt32(x: real): (r: Option<int32>)
    ensures r.Some? <==> -0x8000_0001 as real < x < 0x8000_0000 as real
    ensures r.Some? ==> r.value as int == TruncateTowardZero(x)
  {
    var t := TruncateTowardZero(x);
    if -0x8000_0000 <= t < 0x8000_0000 then Some(t as int32) else None
  }
}

=== FILE: leases.dfy ===
/** The lease guard shared by every registry of the library.

    A registry maps a resource key (a pin, a hardware PWM channel) to a weak
    reference of the handle last issued for it. Before issuing a new handle
    the registry looks at that entry: a live referent refuses the lease, a
    dead one is cleared. `Registered` is the exclusivity invariant this
    guard maintains. */
module Leases {
  import opened Wrappers
  import opened Weak

  type Table<K> = map<K, WeakRef>

  /** The entry for `key` refers to a live handle. */
  predicate InUse<K>(t: Table<K>, alive: set<ObjectId>, key: K)
  {
    key in t && Get(t[key], alive).Some?
  }

  /** `a` and `b` agree on every key except `key`. */
  ghost predicate SameExcept<K>(a: Table<K>, b: Table<K>, key: K)
  {
    && (forall k :: k in a && k != key ==> k in b && b[k] == a[k])
    && (forall k :: k in b && k != key ==> k in a)
  }

  /** The guard: `None` when a live handle holds `key`, otherwise the table
      with any stale entry for `key` removed. */
  function Reclaim<K>(t: Table<K>, alive: set<ObjectId>, key: K): (r: Option<Table<K>>)
    ensures r.None? <==> InUse(t, alive, key)
    ensures r.Some? ==> key !in r.value && SameExcept(t, r.value, key)
  {
    if key in t then
      if Get(t[key], alive).Some? then None else Some(t - {key})
    else
      Some(t)
  }

  /** A lease handed out in the past: the key and the handle's identity. */
  datatype Grant<K> = Grant(key: K, holder: ObjectId)

  /** Every grant was issued by this heap, and every grant whose holder is
      still alive is the one the table records for its key. */
  ghost predicate Registered<K>(t: Table<K>, h: Heap, grants: set<Grant<K>>)
  {
    && (forall g :: g in grants ==> g.holder < h.next)
    && (forall g :: g in grants && g.holder in h.alive ==> g.key in t && t[g.key].referent == g.holder)
  }

  /** Exclusivity: under `Registered`, two live grants for the same key are
      the same handle. */
  lemma RegisteredIsExclusive<K>(t: Table<K>, h: Heap, grants: set<Grant<K>>, a: Grant<K>, b: Grant<K>)
    requires Registered(t, h, grants)
    requires a in grants && b in grants && a.key == b.key
    requires a.holder in h.alive && b.holder in h.alive
    ensures a.holder == b.holder
  {
  }

  /** Issuing a fresh handle for `key` after the guard passes, and recording
      it, keeps the invariant. */
  lemma GrantKeepsRegistered<K>(t: Table<K>, h: Heap, grants: set<Grant<K>>, key: K)
    requires Registered(t, h, grants)
    requires !InUse(t, h.alive, key)
    ensures var (h', id) := Allocate(h);
            Registered(Reclaim(t, h.alive, key).value[key := WeakRef(id)], h', grants + {Grant(key, id)})
  {
  }

  /** Dropping a handle keeps the invariant: the table is not touched. */
  lemma ReleaseKeepsRegistered<K>(t: Table<K>, h: Heap, grants: set<Grant<K>>, id: ObjectId)
    requires Registered(t, h, grants)
    ensures Registered(t, Release(h, id), grants)
  {
  }

  /** A refused lease or a stale entry cleared before a later failure keeps
      the invariant. */
  lemma ReclaimKeepsRegistered<K>(t: Table<K>, h: Heap, grants: set<Grant<K>>, key: K)
    requires Registered(t, h, grants)
    requires !InUse(t, h.alive, key)
    ensures Registered(Reclaim(t, h.alive, key).value, h, grants)
  {
  }
}

=== FILE: pin_leases.dfy ===
/** What the two pin registries (`GPIOs` and the older `GPIOController`)
    have in common: their errors, the shape of a lease's outcome, and the
    success path that creates, configures and records a new handle. */
module PinLeases {
  import opened Wrappers
  import opened Weak
  import opened Leases
  import opened Gpio
  import Backend

  /** The errors of a pin lease. `GPIOs.E` and `GPIOController.Error` are
      two copies of this enumeration. */
  datatype GpioError = PinInUse(pin: Pin) | PinNotFound(pin: Pin)

  /** A lease's outcome: the registry table and heap afterwards, the handle
      or error, and the backend operations performed. The table is part of
      the outcome on failure too, since a stale entry may have been
      cleared before the failure. */
  datatype Leased = Leased(gpios: Table<Pin>, heap: Heap, result: Result<GPIO, GpioError>, events: seq<Backend.Event>)

  /** The success path shared by both registries: a new handle is created
      and configured, and a weak reference to it is stored for `pin`. */
  function Issue(cleared: Table<Pin>, heap: Heap, pin: Pin, direction: Direction, value: Value): (r: Leased)
    ensures r.result.Success?
    ensures r.result.value.pin == pin && r.result.value.direction == direction
    ensures r.result.value.id !in heap.alive
    ensures r.heap.alive == heap.alive + {r.result.value.id}
    ensures r.gpios == cleared[pin := WeakRef(r.result.value.id)]
    ensures InUse(r.gpios, r.heap.alive, pin)
    ensures forall s :: InitEffect(s, Configured(r.result.value, r.events), direction, value)
  {
    var (heap', id) := Allocate(heap);
    var c := Init(id, pin, direction, value);
    Leased(cleared[pin := WeakRef(id)], heap', Success(c.gpio), c.events)
  }

  /** The grants after a lease: the new handle joins them on success. */
  function Granted(grants: set<Grant<Pin>>, r: Leased): set<Grant<Pin>>
  {
    if r.result.Success? then grants + {Grant(r.result.value.pin, r.result.value.id)} else grants
  }
}

=== FILE: sequences.dfy ===
/** `Sequence.firstMapped`: the first non-nil transform of a sequence's
    elements, evaluating the elements in order and stopping at the first
    hit. */
module Sequences {
  import opened Wrappers

  /** The index of the first element whose transform is non-nil, or the
      length of `xs` when there is none. */
  function FirstHit<T, U>(xs: seq<T>, f: T -> Option<U>): (i: nat)
    ensures i <= |xs|
    ensures forall j :: 0 <= j < i ==> f(xs[j]).None?
    ensures i < |xs| ==> f(xs[i]).Some?
  {
    if xs == [] then 0
    else if f(xs[0]).Some? then 0
    else 1 + FirstHit(xs[1..], f)
  }

  /** `firstMapped`, element by element: the transform of the first element
      that has one, or nil. */
  function FirstMapped<T, U>(xs: seq<T>, f: T -> Option<U>): (r: Option<U>)
    ensures r.None? <==> forall j :: 0 <= j < |xs| ==> f(xs[j]).None?
    ensures r == (var i := FirstHit(xs, f); if i < |xs| then f(xs[i]) else None)
  {
    if xs == [] then None
    else
      match f(xs[0])
      case Some(u) => Some(u)
      case None => FirstMapped(xs[1..], f)
  }

  /** The `for` loop of `firstMapped`. `evaluated` counts the elements whose
      transform was computed: the elements up to and including the first
      hit, or all of them. */
  method FirstMappedLoop<T, U>(xs: seq<T>, f: T -> Option<U>) returns (r: Option<U>, evaluated: nat)
    ensures r == FirstMapped(xs, f)
    ensures evaluated == if FirstHit(xs, f) < |xs| then FirstHit(xs, f) + 1 else |xs|
  {
    evaluated := 0;
    while evaluated < |xs|
      invariant evaluated <= |xs|
      invariant forall j :: 0 <= j < evaluated ==> f(xs[j]).None?
    {
      var mapped := f(xs[evaluated]);
      evaluated := evaluated + 1;
      if mapped.Some? {
        return mapped, evaluated;
      }
    }
    return None, evaluated;
  }

  /** `firstMapped` looks at its transform only through the elements: two
      transforms that agree on every element give the same result. */
  lemma {:induction false} FirstMappedCongruent<T, U>(xs: seq<T>, f: T -> Option<U>, g: T -> Option<U>)
    requires forall i :: 0 <= i < |xs| ==> f(xs[i]) == g(xs[i])
    ensures FirstMapped(xs, f) == FirstMapped(xs, g)
    decreases |xs|
  {
    if xs != [] {
      assert f(xs[0]) == g(xs[0]);
      forall i | 0 <= i < |xs[1..]|
        ensures f(xs[1..][i]) == g(xs[1..][i])
      {
        assert xs[1..][i] == xs[i + 1];
      }
      FirstMappedCongruent(xs[1..], f, g);
    }
  }
}

=== FILE: sleep.dfy ===
/** The `sleep` helpers: each converts its argument to microseconds with
    `UInt32` arithmetic and hands the result to `usleep`. A function here
    returns the microseconds `usleep` receives, or `None` when the
    conversion traps. */
module Sleep {
  import opened Wrappers
  import opened Ints

  /** `sleep(µs:)`: the argument reaches `usleep` as it is. */
  function SleepMicros(us: uint32): (r: uint32)
    ensures r == us
  {
    us
  }

  /** `sleep(ms:)`: `ms * 1_000` microseconds; traps unless the product fits
      in `UInt32`. */
  function SleepMillis(ms: uint32): (r: Option<uint32>)
    ensures r.Some? <==> ms <= 4_294_967
    ensures r.Some? ==> r.value as int == ms as int * 1_000
  {
    match Mul(ms, 1_000)
    case None => None
    case Some(us) => Some(SleepMicros(us))
  }

  /** `sleep(s:)`: converts to milliseconds, then to microseconds; the two
      products fit exactly when `s <= 4294`. */
  function SleepSeconds(s: uint32): (r: Option<uint32>)
    ensures r.Some? <==> s <= 4294
    ensures r.Some? ==> r.value as int == s as int * 1_000_000
  {
    match Mul(s, 1_000)
    case None => None
    case Some(ms) => SleepMillis(ms)
  }

  /** `sleep(Hz:)`: one period of `Hz` hertz, `1_000_000 / Hz` microseconds
      rounded down; division by zero traps. */
  function SleepHz(hz: uint32): (r: Option<uint32>)
    ensures r.Some? <==> hz > 0
    ensures r.Some? ==> r.value as int * hz as int <= 1_000_000 < (r.value as int + 1) * hz as int
  {
    if hz == 0 then None else Some(SleepMicros(1_000_000 / hz))
  }

  /** The helpers compose: a sleep in seconds is the sleep of as many
      thousand milliseconds, which is the sleep of as many thousand
      microseconds, and each fits exactly when the next one does. */
  lemma SleepChain(s: uint32)
    ensures s as int * 1_000 < UINT32_LIMIT ==> SleepSeconds(s) == SleepMillis((s as int * 1_000) as uint32)
    ensures s as int * 1_000 < UINT32_LIMIT && SleepMillis((s as int * 1_000) as uint32).Some? ==>
              SleepMillis((s as int * 1_000) as uint32) == Some(SleepMicros((s as int * 1_000_000) as uint32))
  {
  }
}

=== FILE: software_pwm.dfy ===
/** `SoftwarePulseWidthModulation`: a pin leased for output and driven on
    and off by a background loop. The loop itself is not modelled; one
    iteration of it is, as the list of phases it performs: the value it
    writes and the microseconds it then sleeps. */
module SoftwarePwm {
  import opened Wrappers
  import opened Weak
  import opened Leases
  import opened Ints
  import opened Gpio
  import opened PinLeases
  import GpioController

  /** A session: the output handle it owns, the duty (a Swift `Float`,
      modelled as a real) and the cycle length in units of 100µs. */
  datatype SoftwarePwm = SoftwarePwm(gpio: GPIO, duty: real, range: uint32)

  /** The `range` the range-based factory uses when none is given. */
  const DefaultRange: uint32 := 100

  /** Assigning `duty` (its `didSet`): out-of-range values saturate at the
      nearer bound instead of failing; in-range values are kept exactly. */
  function SetDuty(p: SoftwarePwm, duty: real): (r: SoftwarePwm)
    ensures r.gpio == p.gpio && r.range == p.range
    ensures 0.0 <= r.duty <= p.range as real
    ensures 0.0 <= duty <= p.range as real ==> r.duty == duty
    ensures duty < 0.0 ==> r.duty == 0.0
    ensures duty > p.range as real ==> r.duty == p.range as real
  {
    var p := p.(duty := duty);
    if p.duty < 0.0 then p.(duty := 0.0)
    else if p.duty > p.range as real then p.(duty := p.range as real)
    else p
  }

  /** Assigning the duty a session already has changes nothing. */
  lemma SetDutyIdempotent(p: SoftwarePwm, duty: real)
    ensures var q := SetDuty(p, duty); SetDuty(q, q.duty) == q
  {
  }

  /** One phase of the loop: write `value`, then sleep `micros`. */
  datatype Phase = Phase(value: Value, micros: uint32)

  /** The phase for `units` of 100µs at `value`: none when `units` is zero,
      a trap when `units * 100` overflows. */
  function PhaseFor(value: Value, units: uint32): (r: Option<seq<Phase>>)
    ensures r.Some? <==> units as int * 100 < UINT32_LIMIT
    ensures r.Some? && units == 0 ==> r.value == []
    ensures r.Some? && units != 0 ==> r.value == [Phase(value, (units as int * 100) as uint32)]
  {
    if units == 0 then Some([])
    else
      match Mul(units, 100)
      case None => None
      case Some(us) => Some([Phase(value, us)])
  }

  /** The microseconds a list of phases sleeps in total, and those spent
      at `value`. */
  function Duration(phases: seq<Phase>, value: Value): nat
  {
    if phases == [] then 0
    else (if phases[0].value == value then phases[0].micros as nat else 0) + Duration(phases[1..], value)
  }

  /** One iteration of `run()`: `mark` is the duty converted to `UInt32`,
      `space` the rest of the range. Every conversion and product traps as
      Swift's do. */
  function Iteration(duty: real, range: uint32): (r: Option<seq<Phase>>)
    ensures r.Some? ==> -1.0 < duty && TruncateTowardZero(duty) <= range as int
    ensures r.Some? ==> |r.value| <= 2 && forall i :: 0 <= i < |r.value| ==> r.value[i].micros > 0
  {
    match ToUInt32(duty)
    case None => None
    case Some(mark) =>
      match Sub(range, mark)
      case None => None
      case Some(space) =>
        match (PhaseFor(Value.On, mark), PhaseFor(Value.Off, space))
        case (Some(on), Some(off)) => Some(on + off)
        case _ => None
  }

  /** With the duty in range and a cycle that fits in `UInt32`
      microseconds, an iteration never traps: it is on for `floor(duty)`
      units, then off for the rest, and lasts exactly `range * 100`µs. */
  lemma IterationInRange(duty: real, range: uint32)
    requires 0.0 <= duty <= range as real
    requires range as int * 100 < UINT32_LIMIT
    ensures var r := Iteration(duty, range);
            && r.Some?
            && Duration(r.value, Value.On) == duty.Floor * 100
            && Duration(r.value, Value.Off) == (range as int - duty.Floor) * 100
            && Duration(r.value, Value.On) + Duration(r.value, Value.Off) == range as int * 100
            && (r.value != [] && duty.Floor != 0 ==> r.value[0].value == Value.On)
            && (r.value != [] && duty.Floor == 0 ==> r.value == [Phase(Value.Off, (range as int * 100) as uint32)])
  {
    var mark := duty.Floor;
    assert 0 <= mark <= range as int;
    var on := PhaseFor(Value.On, mark as uint32).value;
    var off := PhaseFor(Value.Off, (range as int - mark) as uint32).value;
    assert Iteration(duty, range) == Some(on + off);
    DurationAppend(on, off, Value.On);
    DurationAppend(on, off, Value.Off);
  }

  lemma {:induction false} DurationAppend(a: seq<Phase>, b: seq<Phase>, value: Value)
    ensures Duration(a + b, value) == Duration(a, value) + Duration(b, value)
    decreases |a|
  {
    if a == [] {
      assert a + b == b;
    } else {
      assert (a + b)[1..] == a[1..] + b;
      DurationAppend(a[1..], b, value);
    }
  }

  /** A duty of zero gives an off phase only; a duty equal to the range
      gives an on phase only. */
  lemma IterationExtremes(range: uint32)
    requires 0 < range as int && range as int * 100 < UINT32_LIMIT
    ensures Iteration(0.0, range) == Some([Phase(Value.Off, (range as int * 100) as uint32)])
    ensures Iteration(range as real, range) == Some([Phase(Value.On, (range as int * 100) as uint32)])
  {
    var full := (range as int * 100) as uint32;
    assert ToUInt32(0.0) == Some(0);
    assert Sub(range, 0) == Some(range);
    assert PhaseFor(Value.Off, range) == Some([Phase(Value.Off, full)]);
    assert [] + [Phase(Value.Off, full)] == [Phase(Value.Off, full)];
    assert (range as real).Floor == range as int;
    assert ToUInt32(range as real) == Some(range);
    assert Sub(range, range) == Some(0);
    assert PhaseFor(Value.On, range) == Some([Phase(Value.On, full)]);
    assert [Phase(Value.On, full)] + [] == [Phase(Value.On, full)];
  }

  /** The documented example: range 100 and duty 30 are on for 3ms, then off
      for 7ms. */
  lemma IterationExample()
    ensures Iteration(30.0, 100) == Some([Phase(Value.On, 3_000), Phase(Value.Off, 7_000)])
  {
    assert ToUInt32(30.0) == Some(30);
    assert Sub(100, 30) == Some(70);
    assert PhaseFor(Value.On, 30) == Some([Phase(Value.On, 3_000)]);
    assert PhaseFor(Value.Off, 70) == Some([Phase(Value.Off, 7_000)]);
    assert [Phase(Value.On, 3_000)] + [Phase(Value.Off, 7_000)] == [Phase(Value.On, 3_000), Phase(Value.Off, 7_000)];
  }

  /** After any assignment to `duty`, the loop's next iteration does not
      trap, provided the cycle fits in `UInt32` microseconds. */
  lemma AssignedDutyNeverTraps(p: SoftwarePwm, duty: real)
    requires p.range as int * 100 < UINT32_LIMIT
    ensures Iteration(SetDuty(p, duty).duty, p.range).Some?
  {
  }

  // ------------------------------------------------------------- Creation

  /** The initialiser as written: assigning `duty` inside the initialiser
      does not run `didSet`, so the initial duty is stored unclamped. */
  function InitAsWritten(gpio: GPIO, duty: real, range: uint32): (r: SoftwarePwm)
    ensures r.gpio == gpio && r.range == range
    ensures r.duty == duty
  {
    SoftwarePwm(gpio, duty, range)
  }

  /** An unclamped initial duty above the range makes `range - mark`
      underflow in the first iteration, and one at or below -1 makes the
      conversion to `UInt32` trap. */
  lemma InitAsWrittenTraps(gpio: GPIO)
    ensures Iteration(InitAsWritten(gpio, 150.0, 100).duty, 100).None?
    ensures Iteration(InitAsWritten(gpio, -1.0, 100).duty, 100).None?
  {
  }

  /** The initialiser with the clamp the property promises applied to the
      initial duty too: the session satisfies `0 <= duty <= range` from the
      start. */
  function Init(gpio: GPIO, duty: real, range: uint32): (r: SoftwarePwm)
    ensures r.gpio == gpio && r.range == range
    ensures 0.0 <= r.duty <= range as real
    ensures 0.0 <= duty <= range as real ==> r.duty == duty
    ensures range as int * 100 < UINT32_LIMIT ==> Iteration(r.duty, range).Some?
  {
    var r := SetDuty(SoftwarePwm(gpio, 0.0, range), duty);
    if range as int * 100 < UINT32_LIMIT then
      AssignedDutyNeverTraps(SoftwarePwm(gpio, 0.0, range), duty);
      r
    else
      r
  }

  /** The no-trap promise needs the cycle to fit: with range 50_000_000 a
      clamped duty equal to the range still traps, as `mark * 100`
      overflows `UInt32`. */
  lemma InitTrapsOnHugeRange(gpio: GPIO)
    ensures Iteration(Init(gpio, 50_000_000.0, 50_000_000).duty, 50_000_000).None?
  {
    assert Init(gpio, 50_000_000.0, 50_000_000).duty == 50_000_000.0;
    assert ToUInt32(50_000_000.0) == Some(50_000_000);
    assert Sub(50_000_000, 50_000_000) == Some(0);
    assert PhaseFor(Value.On, 50_000_000).None?;
  }

  /** A factory's outcome: as a pin lease's, with a session on success. */
  datatype Created = Created(gpios: Table<Pin>, heap: Heap, result: Result<SoftwarePwm, GpioError>, events: seq<Backend.Event>)

  /** A session started by `start` on the handle of a successful lease; a
      failed lease's error and state pass through unchanged. */
  function Started(l: Leased, start: GPIO -> SoftwarePwm): (r: Created)
    ensures r.gpios == l.gpios && r.heap == l.heap && r.events == l.events
    ensures r.result.Failure? <==> l.result.Failure?
    ensures r.result.Failure? ==> r.result.error == l.result.error
    ensures r.result.Success? ==> r.result.value == start(l.result.value)
  {
    match l.result
    case Failure(e) => Created(l.gpios, l.heap, Failure(e), l.events)
    case Success(g) => Created(l.gpios, l.heap, Success(start(g)), l.events)
  }

  /** `softwarePulseWidthModulation(for:duty:range:)`: leases the pin for
      output (initially off) from the controller, propagating its error
      unchanged, and starts a session on the handle with the initialiser
      as written, so the given duty is stored as it is. */
  function WithRange(gpios: Table<Pin>, heap: Heap, pin: Pin, duty: real, range: uint32): (r: Created)
    ensures var l := GpioController.Lease(gpios, heap, pin, Out, Off);
            && r.gpios == l.gpios && r.heap == l.heap && r.events == l.events
            && (r.result.Failure? <==> l.result.Failure?)
            && (r.result.Failure? ==> r.result.error == l.result.error)
            && (r.result.Success? ==> r.result.value.gpio == l.result.value)
    ensures r.result.Failure? <==> InUse(gpios, heap.alive, pin)
    ensures r.result.Success? ==>
              && r.result.value.gpio.pin == pin && r.result.value.gpio.direction == Out
              && r.result.value.range == range
              && r.result.value.duty == duty
  {
    Started(GpioController.Lease(gpios, heap, pin, Out, Off), g => InitAsWritten(g, duty, range))
  }

  /** The factory hands out a session whose loop traps at once: a free pin,
      range 100 and duty 150. */
  lemma WithRangeCanTrap(heap: Heap, pin: Pin)
    ensures var r := WithRange(map[], heap, pin, 150.0, 100);
            r.result.Success? && Iteration(r.result.value.duty, r.result.value.range).None?
  {
    InitAsWrittenTraps(GPIO(heap.next, pin, Out));
  }

  /** `softwarePulseWidthModulation(for:duty:hz:)`: as `WithRange` with a
      range of `10_000 / hz` units, the longest cycle of at most `1/hz`
      seconds. */
  function WithHz(gpios: Table<Pin>, heap: Heap, pin: Pin, duty: real, hz: uint32): (r: Created)
    requires hz > 0
    ensures var l := GpioController.Lease(gpios, heap, pin, Out, Off);
            && r.gpios == l.gpios && r.heap == l.heap && r.events == l.events
            && (r.result.Failure? <==> l.result.Failure?)
            && (r.result.Failure? ==> r.result.error == l.result.error)
            && (r.result.Success? ==> r.result.value.gpio == l.result.value)
    ensures r.result.Failure? <==> InUse(gpios, heap.alive, pin)
    ensures r.result.Success? ==>
              && r.result.value.gpio.pin == pin && r.result.value.gpio.direction == Out
              && r.result.value.duty == duty
              && r.result.value.range as int * hz as int <= 10_000 < (r.result.value.range as int + 1) * hz as int
  {
    WithRange(gpios, heap, pin, duty, 10_000 / hz)
  }

  /** At 100 Hz (range 100) a duty of 150 also gives a session that traps. */
  lemma WithHzCanTrap(heap: Heap, pin: Pin)
    ensures var r := WithHz(map[], heap, pin, 150.0, 100);
            r.result.Success? && Iteration(r.result.value.duty, r.result.value.range).None?
  {
    assert 10_000 / (100 as uint32) == 100;
    WithRangeCanTrap(heap, pin);
  }

  /** `WithRange` with the corrected initialiser: the session starts with
      `0 <= duty <= range` and its loop does not trap. */
  function WithRangeClamped(gpios: Table<Pin>, heap: Heap, pin: Pin, duty: real, range: uint32): (r: Created)
    ensures var l := GpioController.Lease(gpios, heap, pin, Out, Off);
            && r.gpios == l.gpios && r.heap == l.heap && r.events == l.events
            && (r.result.Failure? <==> l.result.Failure?)
            && (r.result.Failure? ==> r.result.error == l.result.error)
            && (r.result.Success? ==> r.result.value.gpio == l.result.value)
    ensures r.result.Failure? <==> InUse(gpios, heap.alive, pin)
    ensures r.result.Success? ==>
              && r.result.value.gpio.pin == pin && r.result.value.gpio.direction == Out
              && r.result.value.range == range
              && 0.0 <= r.result.value.duty <= range as real
              && (0.0 <= duty <= range as real ==> r.result.value.duty == duty)
              && (range as int * 100 < UINT32_LIMIT ==> Iteration(r.result.value.duty, range).Some?)
  {
    Started(GpioController.Lease(gpios, heap, pin, Out, Off), g => Init(g, duty, range))
  }

  /** `WithHz` with the corrected initialiser. A range of `10_000 / hz`
      always fits, so the loop never traps. */
  function WithHzClamped(gpios: Table<Pin>, heap: Heap, pin: Pin, duty: real, hz: uint32): (r: Created)
    requires hz > 0
    ensures var l := GpioController.Lease(gpios, heap, pin, Out, Off);
            && r.gpios == l.gpios && r.heap == l.heap && r.events == l.events
            && (r.result.Failure? <==> l.result.Failure?)
            && (r.result.Failure? ==> r.result.error == l.result.error)
            && (r.result.Success? ==> r.result.value.gpio == l.result.value)
    ensures r.result.Failure? <==> InUse(gpios, heap.alive, pin)
    ensures r.result.Success? ==>
              && r.result.value.gpio.pin == pin && r.result.value.gpio.direction == Out
              && 0.0 <= r.result.value.duty <= r.result.value.range as real
              && Iteration(r.result.value.duty, r.result.value.range).Some?
  {
    WithRangeClamped(gpios, heap, pin, duty, 10_000 / hz)
  }

  /** The default range of 100 units is a 10ms cycle: with any duty in range,
      one iteration lasts exactly 10_000µs. */
  lemma DefaultCycleIsTenMillis(duty: real)
    requires 0.0 <= duty <= DefaultRange as real
    ensures var r := Iteration(duty, DefaultRange);
            r.Some? && Duration(r.value, Value.On) + Duration(r.value, Value.Off) == 10_000
  {
    IterationInRange(duty, DefaultRange);
  }
}

=== FILE: weak.dfy ===
/** Object lifetime and non-owning references.

    Swift's automatic reference counting is abstracted as an explicit set of
    live objects: allocation adds a fresh identity, dropping the last strong
    reference removes it. A `WeakRef` names an object without keeping it in
    that set, and reads back as `None` once the object is gone. */
module Weak {
  import opened Wrappers

  type ObjectId = nat

  /** The live objects; every identity below `next` has been handed out. */
  datatype HeapState = HeapState(alive: set<ObjectId>, next: ObjectId)

  type Heap = h: HeapState | forall id :: id in h.alive ==> id < h.next
    witness HeapState({}, 0)

  /** A weak reference: it never keeps its referent alive. */
  datatype WeakRef = WeakRef(referent: ObjectId)

  /** `weak.value`: the referent while it lives, `nil` afterwards. */
  function Get(w: WeakRef, alive: set<ObjectId>): (r: Option<ObjectId>)
    ensures r.Some? <==> w.referent in alive
    ensures r.Some? ==> r.value == w.referent
  {
    if w.referent in alive then Some(w.referent) else None
  }

  /** Allocation of a new object: its identity is not any live one. */
  function Allocate(h: Heap): (r: (Heap, ObjectId))
    ensures r.1 !in h.alive
    ensures r.0.alive == h.alive + {r.1}
    ensures h.next <= r.1 < r.0.next
  {
    (HeapState(h.alive + {h.next}, h.next + 1), h.next)
  }

  /** The last strong reference to `id` disappears. */
  function Release(h: Heap, id: ObjectId): (r: Heap)
    ensures r.alive == h.alive - {id}
    ensures r.next == h.next
  {
    HeapState(h.alive - {id}, h.next)
  }

  /** A weak reference to a freshly allocated object is non-nil, and reads
      as nil once that object has been released. */
  lemma WeakTracksLifetime(h: Heap)
    ensures var (h', id) := Allocate(h);
            && Get(WeakRef(id), h'.alive) == Some(id)
            && Get(WeakRef(id), Release(h', id).alive) == None
  {
  }
}

=== FILE: wrappers.dfy ===
/** Optional values and fallible results, as used throughout the model.
    `Option` stands for Swift's `T?`; `Result` stands for a `throws` call. */
module Wrappers {

  datatype Option<+T> = None | Some(value: T)

  datatype Result<+R, +E> = Success(value: R) | Failure(error: E)
}
